=== FILE: README.md ===
# Campus bus-seat reservation: a verified model

This project models the core of a campus bus-seat reservation web service.
Students register, log in, pick a seat on a bus schedule, confirm it and cancel it
after a hold period. Administrators create and edit schedules. The model covers two parts:

- **Validators.** These are the input checks of student registration, student login,
  admin registration and admin login: the password policy, the student-ID format for
  each year, the phone and e-mail checks, and the arithmetic CAPTCHA.
- **Seat bookkeeping.** These are the handlers that read and write schedules and bookings:
  - the seat picker (`book_seat`)
  - confirming a seat (`confirm_booking`)
  - cancelling a booking (`cancel_booking`)
  - creating a schedule (`create_slot`)
  - editing a schedule (`edit_schedule`)

The store is a value `Db` holding three tables: buses, schedules and bookings. Each bus
carries its route as the nested join returns it, or `None` when it has no route row. Each
table is a sequence, and a row's id is its position. An insert appends a row, as a serial key
does. Each handler is a pure function from a store to either an error or a new store, and
it runs as one sequential step. Every error leaves the store unchanged. The caller's
identity, the clock (`now`, in seconds) and the CAPTCHA solution held in the session are
explicit parameters. The password-hash functions are passed in as opaque functions.

The model keeps the code's gaps rather than closing them:

- `confirm_booking` does not repeat the picker's "you already hold this schedule" check.
- `cancel_booking` does not look at the booking's status, so a cancelled booking can be
  cancelled again.
- `edit_schedule` overwrites the seat counter with no capacity or bookings check.
- `create_slot` bounds the seat count only from above.

The `Consistency` module proves which invariants each handler keeps, and for the counter
equation it states exactly when each handler keeps it. `Gaps` gives concrete stores on
which a handler breaks an invariant:

- confirm gives one user two seats;
- a double cancel inflates the counter;
- create and edit accept a negative count;
- create opens fewer seats than the bus holds;
- edit breaks the counter equation and the seat range.

`Traces` lifts the preserved invariants to any sequence of requests.

Modules:

| module | file | content |
|---|---|---|
| `Outcomes` | outcomes.dfy | `Option`, `Result`, the first-match lookup |
| `Text` | text.dfy | character classes, `strip`, substring search, decimal rendering |
| `Validators` | validators.dfy | password, student ID, phone, e-mail, CAPTCHA |
| `Accounts` | accounts.dfy | student/admin registration and login |
| `Records` | records.dfy | store rows, booked-seat query, seat counting, offered seats |
| `Reservations` | reservations.dfy | seat picker, confirm, cancel |
| `Schedules` | schedules.dfy | create and edit a schedule |
| `Consistency` | consistency.dfy | invariants and what each handler does to them |
| `Traces` | traces.dfy | invariants along any sequence of requests |
| `Gaps` | gaps.dfy | concrete stores showing the code's gaps, and single-student booking scenarios |

Where the program's own messages promise more than its checks do, the model follows the checks:

- **E-mail.** The error message at app.py:122 asks for an address that *ends with*
  `@student.gitam.edu`. The check at app.py:121 only requires the domain to *occur* in
  the address (`Validators.EmailAcceptsSuffixAndInfix`).
- **Cancelling.** The handler cancels whatever booking the caller owns, confirmed or not
  (`Gaps.DoubleCancelInflatesCounter`).
- **Counter bounds.** One would expect `available_seats` to stay between 0 and the bus
  capacity, and to equal capacity minus confirmed bookings. Nothing enforces this:
  - a double cancel pushes it above capacity;
  - create and edit accept a negative count (`Gaps.CreateAcceptsNegativeSeats`,
    `Gaps.EditAcceptsNegativeSeats`);
  - an edit can set it to any value (`Gaps.EditBreaksCounterAndRange`).

## Model

| member | source | states |
|---|---|---|
| Outcomes.FirstIndex | app.py:618-623 | the index returned is the first row matching the filter; None exactly when no row matches |
| Text.AnyChar | app.py:130-132 | `any(p(c) for c in s)` holds iff some position of `s` satisfies `p` |
| Text.AllChars | app.py:125 | `all(p(c) for c in s)` holds iff every position satisfies `p` |
| Text.Contains | app.py:121 | the substring test holds iff `t` occurs at some offset of `s` |
| Text.StripPadded | app.py:109 | stripping a trimmed string surrounded by any whitespace padding gives that string back |
| Text.StripIsInfix | app.py:109 | the stripped ID is an infix of the input and everything removed around it is whitespace |
| Text.StripIdempotent | app.py:251 | the stripped ID has no whitespace at either end, so stripping again changes nothing |
| Text.DecimalIsCanonical | app.py:257 | `str(n)` produces exactly the non-empty digit strings without a leading zero whose value is `n` |
| Validators.PasswordOk | app.py:129-135 | a password passes iff it has an upper-case letter, a digit, one of `@#$%&*!?` and length at least 8 |
| Validators.PasswordExamples | app.py:195-201 | "Abc12345" is refused for lacking a special character; "Abc123@5" passes |
| Validators.FullMatch | app.py:146 | a fixed-width pattern matches iff the lengths agree and every character is in its position's class |
| Validators.StudentIdValid | app.py:138-151 | years 1-3 need exactly ten digits starting 2025/2024/2023; year 4 needs `HU22`, four capitals and seven digits; any other year fails |
| Validators.YearDetermined | app.py:262-275 | no ID is valid for two different years |
| Validators.NumericIdAccepted | app.py:139-144 | a ten-digit ID starting 2025 is valid for year 1 |
| Validators.NumericIdWrongYear | app.py:141-143 | that same ID is refused when the student claims year 2 |
| Validators.FourthYearIdAccepted | app.py:145-147 | `HU22ABCD1234567` is a valid fourth-year ID |
| Validators.FourthYearLowerCaseRejected | app.py:146 | lower-case letters in the four-letter block are refused |
| Validators.OtherYearsRejectAll | app.py:138-151 | a year outside 1..4 accepts no ID at all |
| Validators.PhoneOk | app.py:125-127 | a phone passes iff it has exactly ten characters, all digits |
| Validators.EmailOk | app.py:121-123 | an address passes iff `@student.gitam.edu` occurs somewhere in it |
| Validators.EmailAcceptsSuffixAndInfix | app.py:121-123 | every address ending in the domain passes, and so does one that only contains it |
| Validators.NewChallenge | app.py:298-302 | a challenge built from two addends in 1..10 has their sum, between 2 and 20, as its solution |
| Validators.CaptchaAcceptsExactly | app.py:257-259 | the CAPTCHA passes iff a solution is stored and the answer is its canonical decimal spelling |
| Validators.CaptchaOk | app.py:257 | a stored solution must exist, and a passing answer is a canonical decimal numeral whose value is that solution |
| Validators.CaptchaExamples | app.py:257 | "12" answers 12; "07" does not answer 7; nothing passes without a stored solution |
| Accounts.Register | app.py:108-179 | a failing form reports the first failing check's error; a passing form is refused as already registered iff its ID or e-mail is in use; success appends exactly one non-admin user with the stripped ID |
| Accounts.RegistrationProblem | app.py:116-151 | the reported error is the first failing check, in the order missing field, e-mail, phone, password, student ID; none iff all pass |
| Accounts.RegisterAcceptsExactly | app.py:116-161 | registration succeeds iff all fields are present, every validator passes, and neither ID nor e-mail is in use |
| Accounts.RegisterPreservesConsistency | app.py:157-173 | registration keeps every user row valid and student IDs and e-mails unique |
| Accounts.FindUser | app.py:279-281 | the user found is the first row with that student ID; none iff no row has it |
| Accounts.Login | app.py:250-295 | CAPTCHA first, then the ID format; success iff both pass, some user has the stripped ID, and the first such user's stored hash accepts the password, whose id is returned |
| Accounts.LoginYearMatchesRegistration | app.py:261-285 | the claimed year is never compared with the stored one, but for a registered user it always agrees |
| Accounts.AdminRegister | app.py:188-219 | a weak password is reported iff the policy fails; success iff the password passes and the username and e-mail are unused; it appends one admin |
| Accounts.AdminRegisterPreservesConsistency | app.py:206-219 | admin registration keeps usernames and e-mails unique |
| Accounts.AdminLogin | app.py:311-351 | CAPTCHA first; success iff it passes, some admin has the username, and the first such admin's hash accepts the password, whose id is returned |
| Accounts.FindAdmin | app.py:320-322 | the admin found is the first row with that username; none iff no row has it |
| Accounts.AdminLoginUnique | app.py:320-322 | with unique usernames, a successful admin login names the only admin with that username |
| Records.BookedSeats | app.py:455-457 | a seat is listed iff some confirmed booking on the schedule holds it |
| Records.LiveCountAppend | app.py:508-515 | inserting a booking raises a schedule's confirmed count by one iff it is a confirmed booking on that schedule |
| Records.LiveCountUpdate | app.py:553-554 | rewriting one booking changes a schedule's confirmed count only by what the old and new row contribute |
| Records.OfferedFrom | app.py:465-467 | the offered list is ascending, lies in the range, avoids booked seats and includes every free seat |
| Records.OfferedSeats | app.py:466-467 | the picker lists exactly the seats 1..capacity not booked, in strictly ascending order, so with no duplicates |
| Reservations.BookSeat | app.py:417-472 | a conflict iff the user holds the schedule; otherwise no seats iff the schedule is missing or its counter is at most zero; otherwise a fault iff its bus or route row is missing; success in every other case, listing exactly the free seats, ascending |
| Reservations.HoldsSchedule | app.py:425-427 | the user holds a confirmed booking on the schedule (stated by Consistency.ConfirmThenPickerRefuses) |
| Reservations.Confirm | app.py:478-525 | unknown schedule, missing bus, out-of-range seat, and held seat or empty counter are refused in that order; success iff the seat is in range and free and the counter positive; it appends one confirmed booking and lowers only that schedule's counter by one |
| Reservations.Cancel | app.py:531-565 | an unknown or foreign booking is not found, and one younger than 120 s is too early; success iff the owner cancels after the hold and the schedule exists; it marks only that booking cancelled and raises only its schedule's counter by one, whatever its status was |
| Schedules.FindBus | app.py:618-623 | the bus found is the first with the requested number; none is found iff no bus has it |
| Schedules.CreateSlot | app.py:610-651 | an unknown bus is not found, and a seat count above capacity is invalid; success iff the bus exists and the count is at most its capacity; it appends one active schedule with that many free seats and changes nothing else |
| Schedules.SplitAtT | app.py:729 | a successful split gives two parts without 'T' that rejoin around one 'T' to the input |
| Schedules.SplitJoin | app.py:729 | splitting `date + "T" + time` gives back `date` and `time` |
| Schedules.SplitRejects | app.py:729 | a departure with no 'T' or with two or more is refused |
| Schedules.EditSchedule | app.py:716-752 | an unknown bus is not found, and a departure that does not split is invalid; success iff the bus exists and the departure splits; it re-targets the schedule and overwrites its counter with no check; an unknown id changes nothing |
| Consistency.NoFaultWhenWellFormed | app.py:431-452 | on a store where every reference resolves and every bus has its route, picker, confirm and cancel never fail on a missing joined row |
| Consistency.PickerNotEmpty | app.py:436-467 | when the counter matches the bookings, a picker that answers always offers at least one seat |
| Consistency.FreeSeatExists | app.py:465-467 | with distinct in-range confirmed seats and fewer bookings than seats, some seat 1..capacity is free |
| Consistency.DistinctPrefix | app.py:456-457 | with distinct confirmed seats, the booked-seat list of a schedule repeats no number |
| Consistency.ConfirmPreservesShape | app.py:496-519 | confirming keeps a well-formed store well formed, confirmed seats within capacity and counters non-negative |
| Consistency.ConfirmKeepsSeatsDistinct | app.py:501-506 | confirming never gives a held seat a second confirmed booking |
| Consistency.ConfirmConservesSeats | app.py:508-519 | confirming leaves free-plus-booked unchanged on every schedule |
| Consistency.ConfirmPreservesCounterMatches | app.py:504-519 | confirming keeps free seats plus confirmed bookings equal to capacity |
| Consistency.ConfirmOneBookingPerUserIff | app.py:502-515 | after a confirm, each user has at most one booking per schedule iff the caller held none on that schedule before |
| Consistency.PickerThenConfirmKeepsOneBookingPerUser | app.py:424-429 | a confirm preceded by an answering picker keeps one booking per user per schedule |
| Consistency.ConfirmThenPickerRefuses | app.py:425-429 | after a successful confirm the user holds the schedule, so the picker refuses that user there |
| Consistency.CancelPreservesShape | app.py:553-559 | cancelling keeps references resolvable, seats distinct and in range, counters non-negative and one booking per user |
| Consistency.CancelSeatTotals | app.py:537-559 | cancelling a confirmed booking conserves free-plus-booked; cancelling a cancelled one adds one phantom seat to its schedule |
| Consistency.CancelCounterMatchesIff | app.py:537-559 | cancelling keeps the counter equation iff the booking was still confirmed |
| Consistency.CancelFreesSeat | app.py:553-554 | after cancelling a confirmed booking its seat is unbooked and every answering picker offers it |
| Consistency.CreatePreservesShape | app.py:624-637 | creating keeps every booking invariant; counters stay non-negative iff the admin's seat count is |
| Consistency.CreateCounterMatchesIff | app.py:629-637 | creating keeps the counter equation iff the admin opens exactly the bus capacity |
| Consistency.NoBookingsBeyond | app.py:633 | a schedule id beyond every booking's schedule has no confirmed bookings |
| Consistency.EditPreservesShape | app.py:731-739 | editing keeps references resolvable, seats distinct and one booking per user, and counters non-negative for a non-negative count |
| Consistency.EditCounterMatchesIff | app.py:731-739 | after an edit the counter equation holds iff the admin's number equals the new bus capacity minus current bookings |
| Traces.ApplyPreserves | app.py:478-752 | from any store, one request of any mutating handler keeps seats distinct and, for non-negative admin counts, counters non-negative; a well-formed store stays well formed |
| Traces.RunPreserves | app.py:478-752 | from any starting store, confirmed seats stay distinct along any sequence of requests, counters stay non-negative while admin counts are non-negative, and well-formedness is kept |
| Gaps.FirstConfirm | app.py:508-519 | on a fresh schedule, confirming an in-range seat yields one booking and a counter one lower |
| Gaps.SingleSeatScenario | app.py:496-506 | on a one-seat bus, seat 2 is invalid; seat 1 leaves 0 free; a second confirmation of seat 1 is a conflict |
| Gaps.CancelFirst | app.py:553-559 | cancelling the only booking after the hold marks it cancelled and raises the counter |
| Gaps.CancelGuardScenario | app.py:537-551 | a cancel 60 s after booking is too early, another user's cancel is not found, and the picker hides the held seat |
| Gaps.CancelFreesScenario | app.py:553-559 | a cancel after the hold restores the full counter and the seat is offered again |
| Gaps.SecondConfirm | app.py:501-519 | with seat 1 already confirmed for a user, confirm still accepts seat 2 for the same user, leaving two confirmed bookings and a zero counter |
| Gaps.ConfirmAllowsTwoSeatsPerUser | app.py:501-515 | the picker refuses a user who holds the schedule, yet a direct confirm gives that user a second seat |
| Gaps.DoubleCancelCounters | app.py:537-559 | on a one-seat bus the counter equation holds after a confirm and after one cancel, and fails after a second cancel, which leaves the counter at 2 |
| Gaps.DoubleCancelInflatesCounter | app.py:537-559 | cancelling the same booking twice succeeds and leaves 2 free seats on a one-seat bus |
| Gaps.EditBreaksCounterAndRange | app.py:723-739 | an edit to a smaller bus breaks the counter equation and leaves a confirmed seat beyond capacity |
| Gaps.CreateAcceptsNegativeSeats | app.py:618-637 | a negative seat count is accepted and makes the counter negative; capacity + 1 is invalid; an unknown bus is not found |
| Gaps.CreateBelowCapacityBreaksCounter | app.py:624-632 | a schedule opened with fewer seats than the bus holds breaks the counter equation at once |
| Gaps.EditAcceptsNegativeSeats | app.py:731-739 | an edit accepts a negative seat count and leaves the counter negative |
| Gaps.PickerFaultsWithoutRoute | app.py:431-452 | on a bus with no route row the picker fails, while confirming a seat on it still succeeds |

## Left out

- Reservations.Cancel: when the booking's schedule row is missing, the source has already marked the booking cancelled before it fails. The model reports `Fault` and changes nothing. This case cannot arise on a well-formed store (`Consistency.NoFaultWhenWellFormed`).
- Concurrency: the booking insert and the counter update in confirm, and the status update and the counter update in cancel, are separate writes in the source. Each handler is modelled as one atomic step, so races between requests are not modelled.
- Flask routing, sessions, templates, flash messages and redirects are left out. The `'user_id'` / `is_admin` session guards become the explicit caller parameter.
- Password hashing and hash checking are opaque function parameters. The random CAPTCHA addends and `datetime.now()` are parameters too.
- `int()` of a malformed form field raises outside the handlers' `try`. The model receives integers that are already parsed.
- Generic store failures are not modelled. Only a join that finds no row (`Fault`) is.
- Register and admin registration build a PostgREST `or_` filter string from raw input. The model treats it as plain equality on student ID/username and e-mail.
- The admin activity log, `admin_sessions`, admin permission rows, `init_db` seeding and the `/jinja_*` debug routes are audit, seeding or debug writes with no stated behaviour.
- The read-only views (dashboard, admin panel, manage buses, all bookings, view ticket, the GET form of edit schedule, logout, index) only flatten rows for templates.
- The delete-schedule handler is not part of this model. Without it, schedule positions stay stable ids.
- Route rows are reduced to what the picker reads: a bus's route is present or not. The duration column and the route table's own ids are not modelled.
- Validators.PasswordOk, Validators.PhoneOk, Validators.StudentIdValid: digits and capitals are ASCII only. Python's `str.isdigit` and `str.isupper` also accept other Unicode digits and capitals. The `[A-Z]`/`[0-9]` classes of the year-4 pattern are ASCII in Python as well.
- Reservations.Cancel: times are whole seconds on one clock. The source subtracts a parsed stored timestamp from naive local `datetime.now()`. Time zones, sub-second precision, and the exception that mixing naive and aware timestamps would raise are not modelled.
- Reservations.Confirm: the booking insert carries no booking time. The database fills `booking_time` when the row is inserted, and the model records that insertion time as the request's `now`. Any delay between the request and the insert is not modelled.

=== FILE: accounts.dfy ===
/** Student and admin accounts: registration and login, with the password
    hash and the hash check supplied by the caller as opaque functions. */
module Accounts {
  import opened Outcomes
  import opened Text
  import opened Validators

  /** A student row; its id is its position in the users table. */
  datatype User = User(
    studentId: string, year: int, name: string, email: string, phone: string,
    passwordHash: string, isAdmin: bool)

  /** An admin row; its id is its position in the admins table. */
  datatype Admin = Admin(
    username: string, name: string, email: string, phone: string, passwordHash: string)

  datatype RegistrationForm = RegistrationForm(
    studentId: string, name: string, email: string, phone: string, password: string, year: int)

  datatype LoginForm = LoginForm(studentId: string, password: string, year: int, captchaAnswer: string)

  datatype AdminForm = AdminForm(
    adminId: string, adminName: string, password: string, mail: string, phone: string)

  datatype AuthError =
    | MissingField | BadEmail | BadPhone | WeakPassword | BadStudentId
    | AlreadyRegistered | BadCaptcha | BadCredentials

  /** Python's `all([student_id, name, year, email, phone, password])`: every
      field is non-empty and the year is not zero. */
  predicate FieldsPresent(f: RegistrationForm) {
    Strip(f.studentId) != "" && f.name != "" && f.year != 0
    && f.email != "" && f.phone != "" && f.password != ""
  }

  /** The first registration check that fails, in the order the form is
      checked, or `None` when the form passes them all. */
  function RegistrationProblem(f: RegistrationForm): (p: Option<AuthError>)
    ensures p == Some(MissingField) <==> !FieldsPresent(f)
    ensures p == Some(BadEmail) <==> FieldsPresent(f) && !EmailOk(f.email)
    ensures p == Some(BadPhone) <==> FieldsPresent(f) && EmailOk(f.email) && !PhoneOk(f.phone)
    ensures p == Some(WeakPassword) <==>
      FieldsPresent(f) && EmailOk(f.email) && PhoneOk(f.phone) && !PasswordOk(f.password)
    ensures p == Some(BadStudentId) <==>
      FieldsPresent(f) && EmailOk(f.email) && PhoneOk(f.phone) && PasswordOk(f.password)
      && !StudentIdValid(f.year, Strip(f.studentId))
    ensures p.None? <==>
      FieldsPresent(f) && EmailOk(f.email) && PhoneOk(f.phone) && PasswordOk(f.password)
      && StudentIdValid(f.year, Strip(f.studentId))
  {
    var id := Strip(f.studentId);
    if !FieldsPresent(f) then Some(MissingField)
    else if !EmailOk(f.email) then Some(BadEmail)
    else if !PhoneOk(f.phone) then Some(BadPhone)
    else if !PasswordOk(f.password) then Some(WeakPassword)
    else if !StudentIdValid(f.year, id) then Some(BadStudentId)
    else None
  }

  /** Some user already has this student ID or this e-mail. */
  predicate UserTaken(users: seq<User>, studentId: string, email: string) {
    exists i :: 0 <= i < |users| && (users[i].studentId == studentId || users[i].email == email)
  }

  /** Student registration: validate the form, refuse a duplicate student ID
      or e-mail, then append one non-admin user with the hashed password. */
  function Register(users: seq<User>, f: RegistrationForm, hash: string -> string)
    : (r: Result<seq<User>, AuthError>)
    ensures r.Ok? ==> r.value == users + [User(Strip(f.studentId), f.year, f.name, f.email, f.phone, hash(f.password), false)]
    ensures r.Ok? ==>
      && StudentIdValid(f.year, Strip(f.studentId)) && EmailOk(f.email)
      && PhoneOk(f.phone) && PasswordOk(f.password) && f.name != ""
    ensures r.Ok? ==> forall i :: 0 <= i < |users| ==>
      users[i].studentId != Strip(f.studentId) && users[i].email != f.email
    ensures RegistrationProblem(f).Some? ==> r == Err(RegistrationProblem(f).value)
    ensures RegistrationProblem(f).None? ==>
      (r == Err(AlreadyRegistered) <==> UserTaken(users, Strip(f.studentId), f.email))
    ensures r.Err? ==> r.error != BadCaptcha && r.error != BadCredentials
  {
    match RegistrationProblem(f)
    case Some(e) => Err(e)
    case None =>
      var id := Strip(f.studentId);
      if UserTaken(users, id, f.email) then Err(AlreadyRegistered)
      else Ok(users + [User(id, f.year, f.name, f.email, f.phone, hash(f.password), false)])
  }

  /** Registration succeeds exactly when every field check passes and neither
      the student ID nor the e-mail is in use. */
  lemma RegisterAcceptsExactly(users: seq<User>, f: RegistrationForm, hash: string -> string)
    ensures Register(users, f, hash).Ok? <==>
      && f.name != "" && f.password != ""
      && EmailOk(f.email) && PhoneOk(f.phone) && PasswordOk(f.password)
      && StudentIdValid(f.year, Strip(f.studentId))
      && !UserTaken(users, Strip(f.studentId), f.email)
  {
  }

  /** The users table as registration leaves it: every row passed the checks,
      and student IDs and e-mails are unique. */
  predicate UsersConsistent(users: seq<User>) {
    && (forall i :: 0 <= i < |users| ==> RowValid(users[i]))
    && (forall i, j :: 0 <= i < j < |users| ==>
          users[i].studentId != users[j].studentId && users[i].email != users[j].email)
  }

  /** A user row that passed the registration checks. */
  predicate RowValid(u: User) {
    StudentIdValid(u.year, u.studentId) && EmailOk(u.email) && PhoneOk(u.phone) && !u.isAdmin
  }

  lemma RegisterPreservesConsistency(users: seq<User>, f: RegistrationForm, hash: string -> string)
    requires UsersConsistent(users)
    requires Register(users, f, hash).Ok?
    ensures UsersConsistent(Register(users, f, hash).value)
  {
    var u := User(Strip(f.studentId), f.year, f.name, f.email, f.phone, hash(f.password), false);
    assert Register(users, f, hash).value == users + [u];
    AppendKeepsConsistent(users, u);
  }

  /** Appending a valid row whose ID and e-mail are fresh keeps the table
      consistent. */
  lemma AppendKeepsConsistent(users: seq<User>, u: User)
    requires UsersConsistent(users) && RowValid(u)
    requires forall i :: 0 <= i < |users| ==> users[i].studentId != u.studentId && users[i].email != u.email
    ensures UsersConsistent(users + [u])
  {
    var users' := users + [u];
    forall i | 0 <= i < |users'| ensures RowValid(users'[i]) {
      if i < |users| { assert users'[i] == users[i]; }
    }
    forall i, j | 0 <= i < j < |users'|
      ensures users'[i].studentId != users'[j].studentId && users'[i].email != users'[j].email
    {
      assert users'[i] == users[i];
      if j < |users| { assert users'[j] == users[j]; }
    }
  }

  /** The first user row with this student ID: the row the login query's
      `data[0]` returns. */
  function FindUser(users: seq<User>, id: string): (r: Option<nat>)
    ensures r.Some? ==> r.value < |users| && users[r.value].studentId == id
    ensures r.Some? ==> forall j :: 0 <= j < r.value ==> users[j].studentId != id
    ensures r.None? <==> forall j :: 0 <= j < |users| ==> users[j].studentId != id
  {
    FirstIndex(users, (u: User) => u.studentId == id)
  }

  /** Student login: the CAPTCHA is checked first, then the ID format for the
      claimed year, then the stored hash of the first user with that ID. The
      result is the logged-in user's id. */
  function Login(users: seq<User>, solution: Option<nat>, f: LoginForm, check: (string, string) -> bool)
    : (r: Result<nat, AuthError>)
    ensures r == Err(BadCaptcha) <==> !CaptchaOk(solution, f.captchaAnswer)
    ensures r == Err(BadStudentId) <==>
      CaptchaOk(solution, f.captchaAnswer) && !StudentIdValid(f.year, Strip(f.studentId))
    ensures r.Ok? <==>
      && CaptchaOk(solution, f.captchaAnswer)
      && StudentIdValid(f.year, Strip(f.studentId))
      && FindUser(users, Strip(f.studentId)).Some?
      && check(users[FindUser(users, Strip(f.studentId)).value].passwordHash, f.password)
    ensures r.Ok? ==>
      && r.value < |users|
      && users[r.value].studentId == Strip(f.studentId)
      && (forall j :: 0 <= j < r.value ==> users[j].studentId != Strip(f.studentId))
      && check(users[r.value].passwordHash, f.password)
    ensures r.Err? ==> r.error in {BadCaptcha, BadStudentId, BadCredentials}
  {
    if !CaptchaOk(solution, f.captchaAnswer) then Err(BadCaptcha)
    else
      var id := Strip(f.studentId);
      if !StudentIdValid(f.year, id) then Err(BadStudentId)
      else match FindUser(users, id)
        case None => Err(BadCredentials)
        case Some(k) =>
          if check(users[k].passwordHash, f.password) then Ok(k) else Err(BadCredentials)
  }

  /** The year claimed at login is never compared with the stored year, but
      for a registered user it must agree anyway: an ID is valid for one year
      only. */
  lemma LoginYearMatchesRegistration(
    users: seq<User>, solution: Option<nat>, f: LoginForm, check: (string, string) -> bool)
    requires UsersConsistent(users)
    requires Login(users, solution, f, check).Ok?
    ensures users[Login(users, solution, f, check).value].year == f.year
  {
    var k := Login(users, solution, f, check).value;
    assert RowValid(users[k]);
    YearDetermined(users[k].year, f.year, users[k].studentId);
  }

  /** Admins with unique usernames and e-mails. */
  predicate AdminsConsistent(admins: seq<Admin>) {
    forall i, j :: 0 <= i < j < |admins| ==>
      admins[i].username != admins[j].username && admins[i].email != admins[j].email
  }

  /** Admin registration: only the password policy and the duplicate
      username/e-mail check guard the insert. */
  function AdminRegister(admins: seq<Admin>, f: AdminForm, hash: string -> string)
    : (r: Result<seq<Admin>, AuthError>)
    ensures r.Ok? <==>
      PasswordOk(f.password)
      && forall i :: 0 <= i < |admins| ==> admins[i].username != f.adminId && admins[i].email != f.mail
    ensures r == Err(WeakPassword) <==> !PasswordOk(f.password)
    ensures r.Ok? ==> r.value == admins + [Admin(f.adminId, f.adminName, f.mail, f.phone, hash(f.password))]
    ensures r.Err? ==> r.error in {WeakPassword, AlreadyRegistered}
  {
    if !PasswordOk(f.password) then Err(WeakPassword)
    else if exists i :: 0 <= i < |admins| && (admins[i].username == f.adminId || admins[i].email == f.mail) then
      Err(AlreadyRegistered)
    else Ok(admins + [Admin(f.adminId, f.adminName, f.mail, f.phone, hash(f.password))])
  }

  lemma AdminRegisterPreservesConsistency(admins: seq<Admin>, f: AdminForm, hash: string -> string)
    requires AdminsConsistent(admins)
    requires AdminRegister(admins, f, hash).Ok?
    ensures AdminsConsistent(AdminRegister(admins, f, hash).value)
  {
  }

  /** The first admin row with this username. */
  function FindAdmin(admins: seq<Admin>, username: string): (r: Option<nat>)
    ensures r.Some? ==> r.value < |admins| && admins[r.value].username == username
    ensures r.Some? ==> forall j :: 0 <= j < r.value ==> admins[j].username != username
    ensures r.None? <==> forall j :: 0 <= j < |admins| ==> admins[j].username != username
  {
    FirstIndex(admins, (a: Admin) => a.username == username)
  }

  /** Admin login: CAPTCHA, then the stored hash of the first admin with the
      username; no format check on the username. */
  function AdminLogin(
    admins: seq<Admin>, solution: Option<nat>, username: string, password: string,
    captchaAnswer: string, check: (string, string) -> bool)
    : (r: Result<nat, AuthError>)
    ensures r == Err(BadCaptcha) <==> !CaptchaOk(solution, captchaAnswer)
    ensures r.Ok? <==>
      && CaptchaOk(solution, captchaAnswer)
      && FindAdmin(admins, username).Some?
      && check(admins[FindAdmin(admins, username).value].passwordHash, password)
    ensures r.Ok? ==>
      && r.value < |admins|
      && admins[r.value].username == username
      && (forall j :: 0 <= j < r.value ==> admins[j].username != username)
      && check(admins[r.value].passwordHash, password)
    ensures r.Err? ==> r.error in {BadCaptcha, BadCredentials}
  {
    if !CaptchaOk(solution, captchaAnswer) then Err(BadCaptcha)
    else match FindAdmin(admins, username)
      case None => Err(BadCredentials)
      case Some(k) =>
        if check(admins[k].passwordHash, password) then Ok(k) else Err(BadCredentials)
  }

  /** With unique usernames, the admin a successful login names is the only
      admin with that username. */
  lemma AdminLoginUnique(
    admins: seq<Admin>, solution: Option<nat>, username: string, password: string,
    captchaAnswer: string, check: (string, string) -> bool, j: nat)
    requires AdminsConsistent(admins)
    requires AdminLogin(admins, solution, username, password, captchaAnswer, check).Ok?
    requires j < |admins| && admins[j].username == username
    ensures AdminLogin(admins, solution, username, password, captchaAnswer, check).value == j
  {
  }
}

=== FILE: consistency.dfy ===
/** Which store invariants each seat handler keeps, and which it can break. */
module Consistency {
  import opened Outcomes
  import opened Records
  import opened Reservations
  import opened Schedules

  /** Every bus carries its route, every schedule names an existing bus and
      every booking an existing schedule. */
  predicate WellFormed(db: Db) {
    && (forall b :: 0 <= b < |db.buses| ==> db.buses[b].route.Some?)
    && (forall sid :: 0 <= sid < |db.schedules| ==> db.schedules[sid].busId < |db.buses|)
    && (forall i :: 0 <= i < |db.bookings| ==> db.bookings[i].scheduleId < |db.schedules|)
  }

  /** No two confirmed bookings hold the same seat of the same schedule. */
  predicate SeatsDistinct(db: Db) {
    forall i, j :: 0 <= i < j < |db.bookings| ==>
      var a := db.bookings[i];
      var b := db.bookings[j];
      a.status == Confirmed && b.status == Confirmed && a.scheduleId == b.scheduleId ==> a.seat != b.seat
  }

  /** No user holds two confirmed bookings on the same schedule. */
  predicate OneBookingPerUser(db: Db) {
    forall i, j :: 0 <= i < j < |db.bookings| ==>
      var a := db.bookings[i];
      var b := db.bookings[j];
      a.status == Confirmed && b.status == Confirmed && a.scheduleId == b.scheduleId ==> a.userId != b.userId
  }

  /** Every confirmed seat lies within the capacity of its schedule's bus. */
  predicate SeatsInRange(db: Db) {
    forall i :: 0 <= i < |db.bookings| && db.bookings[i].status == Confirmed ==>
      HasBus(db, db.bookings[i].scheduleId) && 1 <= db.bookings[i].seat <= Capacity(db, db.bookings[i].scheduleId)
  }

  /** No schedule's counter is negative. */
  predicate CounterNonNegative(db: Db) {
    forall sid :: 0 <= sid < |db.schedules| ==> db.schedules[sid].availableSeats >= 0
  }

  /** The intended counter invariant: free seats plus confirmed bookings equal
      the bus capacity, for every schedule. */
  predicate CounterMatches(db: Db) {
    forall sid :: 0 <= sid < |db.schedules| ==>
      HasBus(db, sid) && db.schedules[sid].availableSeats + LiveCount(db.bookings, sid) == Capacity(db, sid)
  }

  /** Free seats plus confirmed bookings on `sid`: the quantity a consistent
      handler conserves. */
  function SeatTotal(db: Db, sid: int): int
    requires ScheduleExists(db, sid)
  {
    db.schedules[sid].availableSeats + LiveCount(db.bookings, sid)
  }

  // ---- handlers never fault on a well-formed store ----

  lemma NoFaultWhenWellFormed(db: Db, user: nat, sid: int, seat: int, bid: int, now: int)
    requires WellFormed(db)
    ensures BookSeat(db, user, sid) != Err(Fault)
    ensures Confirm(db, user, sid, seat, now) != Err(Fault)
    ensures Cancel(db, user, bid, now) != Err(Fault)
  {
  }

  // ---- the seat picker ----

  /** When the counter agrees with the bookings and confirmed seats are
      distinct and in range, the picker never shows an empty list: a positive
      counter means some seat is free. */
  lemma PickerNotEmpty(db: Db, user: nat, sid: int)
    requires WellFormed(db) && CounterMatches(db) && SeatsDistinct(db) && SeatsInRange(db)
    requires BookSeat(db, user, sid).Ok?
    ensures |BookSeat(db, user, sid).value| > 0
  {
    var cap := Capacity(db, sid);
    var booked := BookedSeats(db.bookings, sid);
    assert |booked| < cap;
    var free := FreeSeatExists(db, sid);
    assert free in BookSeat(db, user, sid).value;
  }

  /** Some seat in 1..capacity is held by no confirmed booking, whenever
      fewer bookings than seats are confirmed. */
  lemma FreeSeatExists(db: Db, sid: int) returns (free: int)
    requires WellFormed(db) && SeatsDistinct(db) && SeatsInRange(db)
    requires HasBus(db, sid) && LiveCount(db.bookings, sid) < Capacity(db, sid)
    ensures 1 <= free <= Capacity(db, sid) && free !in BookedSeats(db.bookings, sid)
  {
    var booked := BookedSeats(db.bookings, sid);
    DistinctPrefix(db, sid, |db.bookings|);
    assert db.bookings[..|db.bookings|] == db.bookings;
    forall i | 0 <= i < |booked| ensures 1 <= booked[i] <= Capacity(db, sid) {
      assert booked[i] in booked;
    }
    free := Pigeonhole(booked, Capacity(db, sid));
  }

  predicate NoRepeats(s: seq<int>) {
    forall i, j :: 0 <= i < j < |s| ==> s[i] != s[j]
  }

  /** Under `SeatsDistinct`, the booked-seat list of any prefix of the
      bookings repeats no seat. */
  lemma {:induction false} DistinctPrefix(db: Db, sid: int, n: nat)
    requires SeatsDistinct(db) && n <= |db.bookings|
    ensures NoRepeats(BookedSeats(db.bookings[..n], sid))
  {
    var pre := db.bookings[..n];
    if n > 0 {
      var init := db.bookings[..n - 1];
      assert pre[..n - 1] == init;
      DistinctPrefix(db, sid, n - 1);
      var last := pre[n - 1];
      var before := BookedSeats(init, sid);
      if Live(last, sid) {
        assert BookedSeats(pre, sid) == before + [last.seat];
        forall i | 0 <= i < |before| ensures before[i] != last.seat {
          assert before[i] in before;
        }
      } else {
        assert BookedSeats(pre, sid) == before;
      }
    }
  }

  /** Fewer distinct numbers in 1..cap than `cap` leave one of them out. */
  lemma {:induction false} Pigeonhole(booked: seq<int>, cap: int) returns (free: int)
    requires NoRepeats(booked)
    requires forall i :: 0 <= i < |booked| ==> 1 <= booked[i] <= cap
    requires |booked| < cap
    ensures 1 <= free <= cap && free !in booked
    decreases cap
  {
    if cap !in booked {
      free := cap;
    } else {
      var k :| 0 <= k < |booked| && booked[k] == cap;
      var rest := booked[..k] + booked[k + 1..];
      assert forall i :: 0 <= i < |rest| ==> rest[i] == (if i < k then booked[i] else booked[i + 1]);
      free := Pigeonhole(rest, cap - 1);
      forall i | 0 <= i < |booked| ensures booked[i] != free {
        if i < k {
          assert booked[i] == rest[i];
        } else if i > k {
          assert booked[i] == rest[i - 1];
        }
      }
    }
  }

  // ---- confirming a seat ----

  /** Confirming keeps the store well formed, confirmed seats in range and
      counters non-negative. */
  lemma ConfirmPreservesShape(db: Db, user: nat, sid: int, seat: int, now: int)
    requires Confirm(db, user, sid, seat, now).Ok?
    ensures var db' := Confirm(db, user, sid, seat, now).value;
      && (WellFormed(db) ==> WellFormed(db'))
      && (SeatsInRange(db) ==> SeatsInRange(db'))
      && (CounterNonNegative(db) ==> CounterNonNegative(db'))
  {
    var db' := Confirm(db, user, sid, seat, now).value;
    assert forall i :: 0 <= i < |db.bookings| ==> db'.bookings[i] == db.bookings[i];
  }

  /** Confirming never gives a held seat a second confirmed booking. */
  lemma ConfirmKeepsSeatsDistinct(db: Db, user: nat, sid: int, seat: int, now: int)
    requires SeatsDistinct(db)
    requires Confirm(db, user, sid, seat, now).Ok?
    ensures SeatsDistinct(Confirm(db, user, sid, seat, now).value)
  {
    var db' := Confirm(db, user, sid, seat, now).value;
    var n := |db.bookings|;
    forall i | 0 <= i < n && Live(db.bookings[i], sid)
      ensures db.bookings[i].seat != seat
    {
      assert db.bookings[i].seat in BookedSeats(db.bookings, sid);
    }
    assert forall i :: 0 <= i < n ==> db'.bookings[i] == db.bookings[i];
  }

  /** Confirming conserves free-plus-booked on every schedule: the one seat
      taken from the counter is the one booking added. */
  lemma ConfirmConservesSeats(db: Db, user: nat, sid: int, seat: int, now: int)
    requires Confirm(db, user, sid, seat, now).Ok?
    ensures var db' := Confirm(db, user, sid, seat, now).value;
      forall s :: ScheduleExists(db, s) ==> SeatTotal(db', s) == SeatTotal(db, s)
  {
    var db' := Confirm(db, user, sid, seat, now).value;
    forall s | ScheduleExists(db, s) ensures SeatTotal(db', s) == SeatTotal(db, s) {
      LiveCountAppend(db.bookings, Booking(user, sid, seat, Confirmed, now), s);
    }
  }

  lemma ConfirmPreservesCounterMatches(db: Db, user: nat, sid: int, seat: int, now: int)
    requires CounterMatches(db)
    requires Confirm(db, user, sid, seat, now).Ok?
    ensures CounterMatches(Confirm(db, user, sid, seat, now).value)
  {
    ConfirmConservesSeats(db, user, sid, seat, now);
    var db' := Confirm(db, user, sid, seat, now).value;
    assert forall s :: ScheduleExists(db, s) ==> SeatTotal(db, s) == Capacity(db, s);
  }

  /** Confirming keeps one booking per user and schedule exactly when the
      caller does not already hold that schedule: the handler itself does not
      check. */
  lemma ConfirmOneBookingPerUserIff(db: Db, user: nat, sid: int, seat: int, now: int)
    requires OneBookingPerUser(db)
    requires Confirm(db, user, sid, seat, now).Ok?
    ensures OneBookingPerUser(Confirm(db, user, sid, seat, now).value) <==>
      !HoldsSchedule(db.bookings, user, sid)
  {
    var db' := Confirm(db, user, sid, seat, now).value;
    var n := |db.bookings|;
    assert forall i :: 0 <= i < n ==> db'.bookings[i] == db.bookings[i];
    if HoldsSchedule(db.bookings, user, sid) {
      var i :| 0 <= i < n && Live(db.bookings[i], sid) && db.bookings[i].userId == user;
      assert db'.bookings[i].userId == db'.bookings[n].userId;
    }
  }

  /** Going through the picker first closes the gap: a picker that answers
      means the caller holds no booking on the schedule. */
  lemma PickerThenConfirmKeepsOneBookingPerUser(db: Db, user: nat, sid: int, seat: int, now: int)
    requires OneBookingPerUser(db)
    requires BookSeat(db, user, sid).Ok?
    requires Confirm(db, user, sid, seat, now).Ok?
    ensures OneBookingPerUser(Confirm(db, user, sid, seat, now).value)
  {
    ConfirmOneBookingPerUserIff(db, user, sid, seat, now);
  }

  /** After a confirmed seat, the picker's guard refuses the same user on the
      same schedule. */
  lemma ConfirmThenPickerRefuses(db: Db, user: nat, sid: int, seat: int, now: int)
    requires Confirm(db, user, sid, seat, now).Ok?
    ensures HoldsSchedule(Confirm(db, user, sid, seat, now).value.bookings, user, sid)
    ensures BookSeat(Confirm(db, user, sid, seat, now).value, user, sid) == Err(Conflict)
  {
    var db' := Confirm(db, user, sid, seat, now).value;
    assert Live(db'.bookings[|db.bookings|], sid);
  }

  // ---- cancelling a booking ----

  /** Cancelling only withdraws a booking and raises a counter, so every
      invariant except the counter equation survives it. */
  lemma CancelPreservesShape(db: Db, user: nat, bid: int, now: int)
    requires Cancel(db, user, bid, now).Ok?
    ensures var db' := Cancel(db, user, bid, now).value;
      && (WellFormed(db) ==> WellFormed(db'))
      && (SeatsDistinct(db) ==> SeatsDistinct(db'))
      && (SeatsInRange(db) ==> SeatsInRange(db'))
      && (CounterNonNegative(db) ==> CounterNonNegative(db'))
      && (OneBookingPerUser(db) ==> OneBookingPerUser(db'))
  {
  }

  /** Cancelling a confirmed booking conserves free-plus-booked everywhere;
      cancelling one already cancelled adds a phantom free seat to its
      schedule. */
  lemma CancelSeatTotals(db: Db, user: nat, bid: int, now: int)
    requires Cancel(db, user, bid, now).Ok?
    ensures var db' := Cancel(db, user, bid, now).value;
      var b := db.bookings[bid];
      && (forall s :: ScheduleExists(db, s) && s != b.scheduleId ==> SeatTotal(db', s) == SeatTotal(db, s))
      && SeatTotal(db', b.scheduleId) ==
           SeatTotal(db, b.scheduleId) + (if b.status == Confirmed then 0 else 1)
  {
    var db' := Cancel(db, user, bid, now).value;
    var b := db.bookings[bid];
    forall s | ScheduleExists(db, s) ensures LiveCount(db'.bookings, s) ==
      LiveCount(db.bookings, s) - (if Live(b, s) then 1 else 0)
    {
      LiveCountUpdate(db.bookings, bid, b.(status := Cancelled), s);
    }
  }

  /** Cancelling keeps the counter consistent exactly when the booking was
      still confirmed. */
  lemma CancelCounterMatchesIff(db: Db, user: nat, bid: int, now: int)
    requires CounterMatches(db)
    requires Cancel(db, user, bid, now).Ok?
    ensures CounterMatches(Cancel(db, user, bid, now).value) <==> db.bookings[bid].status == Confirmed
  {
    CancelSeatTotals(db, user, bid, now);
    var db' := Cancel(db, user, bid, now).value;
    var s := db.bookings[bid].scheduleId;
    assert forall t :: ScheduleExists(db, t) ==> SeatTotal(db, t) == Capacity(db, t);
    if CounterMatches(db') {
      assert SeatTotal(db', s) == Capacity(db', s);
    }
  }

  /** After a confirmed booking is cancelled its seat is free again, and the
      picker offers it whenever the picker answers. */
  lemma CancelFreesSeat(db: Db, user: nat, bid: int, now: int)
    requires SeatsDistinct(db) && SeatsInRange(db)
    requires Cancel(db, user, bid, now).Ok?
    requires db.bookings[bid].status == Confirmed
    ensures var db' := Cancel(db, user, bid, now).value;
      var b := db.bookings[bid];
      && b.seat !in BookedSeats(db'.bookings, b.scheduleId)
      && forall u :: BookSeat(db', u, b.scheduleId).Ok? ==> b.seat in BookSeat(db', u, b.scheduleId).value
  {
    var db' := Cancel(db, user, bid, now).value;
    var b := db.bookings[bid];
  }

  // ---- creating a schedule ----

  /** Creating a schedule touches no booking; the counter stays
      non-negative exactly when the admin's seat count is. */
  lemma CreatePreservesShape(db: Db, admin: nat, busNumber: string, date: string, time: string, total: int)
    requires CreateSlot(db, admin, busNumber, date, time, total).Ok?
    ensures var db' := CreateSlot(db, admin, busNumber, date, time, total).value;
      && (WellFormed(db) ==> WellFormed(db'))
      && (SeatsDistinct(db) ==> SeatsDistinct(db'))
      && (SeatsInRange(db) ==> SeatsInRange(db'))
      && (OneBookingPerUser(db) ==> OneBookingPerUser(db'))
    ensures CounterNonNegative(db) ==>
      (CounterNonNegative(CreateSlot(db, admin, busNumber, date, time, total).value) <==> total >= 0)
  {
    var db' := CreateSlot(db, admin, busNumber, date, time, total).value;
    forall i | 0 <= i < |db.bookings| && db.bookings[i].status == Confirmed && SeatsInRange(db)
      ensures HasBus(db', db.bookings[i].scheduleId)
      ensures Capacity(db', db.bookings[i].scheduleId) == Capacity(db, db.bookings[i].scheduleId)
    {
      assert db'.schedules[db.bookings[i].scheduleId] == db.schedules[db.bookings[i].scheduleId];
    }
    if CounterNonNegative(db') {
      assert db'.schedules[|db.schedules|].availableSeats == total;
    }
  }

  /** A new schedule has no bookings yet, so the counter invariant survives
      exactly when the admin opens every seat of the bus. */
  lemma CreateCounterMatchesIff(db: Db, admin: nat, busNumber: string, date: string, time: string, total: int)
    requires WellFormed(db) && CounterMatches(db)
    requires CreateSlot(db, admin, busNumber, date, time, total).Ok?
    ensures CounterMatches(CreateSlot(db, admin, busNumber, date, time, total).value) <==>
      total == db.buses[FindBus(db.buses, busNumber).value].capacity
  {
    var db' := CreateSlot(db, admin, busNumber, date, time, total).value;
    var n := |db.schedules|;
    NoBookingsBeyond(db.bookings, n);
    assert LiveCount(db'.bookings, n) == 0;
    forall s | 0 <= s < n ensures db'.schedules[s] == db.schedules[s] { }
    if CounterMatches(db') {
      assert HasBus(db', n) && db'.schedules[n].availableSeats + LiveCount(db'.bookings, n) == Capacity(db', n);
    }
  }

  lemma {:induction false} NoBookingsBeyond(bookings: seq<Booking>, n: nat)
    requires forall i :: 0 <= i < |bookings| ==> bookings[i].scheduleId < n
    ensures LiveCount(bookings, n) == 0
  {
    if |bookings| > 0 {
      NoBookingsBeyond(bookings[..|bookings| - 1], n);
    }
  }

  // ---- editing a schedule ----

  /** Editing touches no booking and points the schedule at an existing bus;
      the counter stays non-negative when the admin's number is. */
  lemma EditPreservesShape(db: Db, admin: nat, sid: int, busNumber: string, departure: string, total: int)
    requires EditSchedule(db, admin, sid, busNumber, departure, total).Ok?
    ensures var db' := EditSchedule(db, admin, sid, busNumber, departure, total).value;
      && (WellFormed(db) ==> WellFormed(db'))
      && (SeatsDistinct(db) ==> SeatsDistinct(db'))
      && (OneBookingPerUser(db) ==> OneBookingPerUser(db'))
      && (CounterNonNegative(db) && total >= 0 ==> CounterNonNegative(db'))
  {
  }

  /** An edit keeps the counter consistent only if the admin's number happens
      to equal the new bus's capacity minus the bookings already held. */
  lemma EditCounterMatchesIff(db: Db, admin: nat, sid: int, busNumber: string, departure: string, total: int)
    requires WellFormed(db) && CounterMatches(db) && ScheduleExists(db, sid)
    requires EditSchedule(db, admin, sid, busNumber, departure, total).Ok?
    ensures CounterMatches(EditSchedule(db, admin, sid, busNumber, departure, total).value) <==>
      total + LiveCount(db.bookings, sid) == db.buses[FindBus(db.buses, busNumber).value].capacity
  {
    var db' := EditSchedule(db, admin, sid, busNumber, departure, total).value;
    forall s | 0 <= s < |db.schedules| && s != sid ensures db'.schedules[s] == db.schedules[s] { }
    if CounterMatches(db') {
      assert HasBus(db', sid) && db'.schedules[sid].availableSeats + LiveCount(db'.bookings, sid) == Capacity(db', sid);
    }
  }
}

=== FILE: gaps.dfy ===
/** Concrete stores on which the handlers break the store invariants, and
    the booking scenarios of a single student, replayed on the model. */
module Gaps {
  import opened Outcomes
  import opened Records
  import opened Reservations
  import opened Schedules
  import opened Consistency

  /** The route of the seeded sample bus. */
  const Campus: Option<Route> := Some(Route("GITAM to Miyapur", "GITAM CAMPUS", "Miyapur"))

  /** One bus of `capacity` seats and one schedule on it with every seat free. */
  function FreshStore(capacity: int): Db {
    Db([Bus("BUS001", capacity, Campus)], [Schedule(0, "2025-01-10", "08:00", capacity, "active", 0, None)], [])
  }

  /** The store after `user` confirms `seat` at `now` on the only schedule
      of `FreshStore(capacity)`. */
  function AfterFirstConfirm(capacity: int, user: nat, seat: int, now: int): Db {
    Db([Bus("BUS001", capacity, Campus)], [Schedule(0, "2025-01-10", "08:00", capacity - 1, "active", 0, None)],
       [Booking(user, 0, seat, Confirmed, now)])
  }

  lemma FirstConfirm(capacity: int, user: nat, seat: int, now: int)
    requires 1 <= seat <= capacity
    ensures Confirm(FreshStore(capacity), user, 0, seat, now) == Ok(AfterFirstConfirm(capacity, user, seat, now))
    ensures BookedSeats(AfterFirstConfirm(capacity, user, seat, now).bookings, 0) == [seat]
  {
    var db0 := FreshStore(capacity);
    var db1 := AfterFirstConfirm(capacity, user, seat, now);
    assert BookedSeats(db0.bookings, 0) == [];
    assert db0.bookings + [Booking(user, 0, seat, Confirmed, now)] == db1.bookings;
    var s := db0.schedules[0];
    assert db0.schedules[0 := s.(availableSeats := s.availableSeats - 1)] == db1.schedules;
    assert db1.bookings[..0] == [];
  }

  /** Confirming seat 1 on a one-seat bus empties the counter; a second
      confirmation of that seat is refused, as is seat capacity + 1. */
  lemma SingleSeatScenario()
    ensures Confirm(FreshStore(1), 7, 0, 2, 0) == Err(Invalid)
    ensures Confirm(FreshStore(1), 7, 0, 1, 0).Ok?
    ensures Confirm(FreshStore(1), 7, 0, 1, 0).value.schedules[0].availableSeats == 0
    ensures Confirm(Confirm(FreshStore(1), 7, 0, 1, 0).value, 8, 0, 1, 5) == Err(Conflict)
  {
    FirstConfirm(1, 7, 1, 0);
  }

  /** The single booking of `db`, on schedule 0, cancelled; the counter of
      schedule 0 raised by one. */
  function CancelOnly(db: Db): Db
    requires |db.bookings| == 1 && |db.schedules| == 1
  {
    var s := db.schedules[0];
    db.(bookings := [db.bookings[0].(status := Cancelled)],
        schedules := [s.(availableSeats := s.availableSeats + 1)])
  }

  lemma CancelFirst(db: Db, user: nat, now: int)
    requires |db.bookings| == 1 && |db.schedules| == 1
    requires db.bookings[0].userId == user && db.bookings[0].scheduleId == 0
    requires now - db.bookings[0].bookingTime >= HoldSeconds
    ensures Cancel(db, user, 0, now) == Ok(CancelOnly(db))
    ensures BookedSeats(CancelOnly(db).bookings, 0) == []
  {
    var b := db.bookings[0];
    assert db.bookings[0 := b.(status := Cancelled)] == CancelOnly(db).bookings;
    var s := db.schedules[0];
    assert db.schedules[0 := s.(availableSeats := s.availableSeats + 1)] == CancelOnly(db).schedules;
    assert CancelOnly(db).bookings[..0] == [];
  }

  /** Book seat 3 at time 1000: cancelling sixty seconds later is refused,
      another user cannot cancel it at all, and the picker no longer offers
      seat 3. */
  lemma CancelGuardScenario(capacity: int)
    requires capacity >= 3
    ensures var db1 := Confirm(FreshStore(capacity), 7, 0, 3, 1000).value;
      && Cancel(db1, 7, 0, 1060) == Err(TooEarly)
      && Cancel(db1, 8, 0, 2000) == Err(NotFound)
      && (BookSeat(db1, 9, 0).Ok? ==> 3 !in BookSeat(db1, 9, 0).value)
  {
    FirstConfirm(capacity, 7, 3, 1000);
  }

  /** Cancelling after the two-minute hold gives the seat back to the counter,
      which returns to the full capacity, and seat 3 is offered again. */
  lemma CancelFreesScenario(capacity: int)
    requires capacity >= 3
    ensures var db1 := Confirm(FreshStore(capacity), 7, 0, 3, 1000).value;
      && Cancel(db1, 7, 0, 1120).Ok?
      && Cancel(db1, 7, 0, 1120).value.schedules[0].availableSeats == capacity
      && 3 in BookSeat(Cancel(db1, 7, 0, 1120).value, 9, 0).value
  {
    FirstConfirm(capacity, 7, 3, 1000);
    var db1 := AfterFirstConfirm(capacity, 7, 3, 1000);
    CancelFirst(db1, 7, 1120);
    var db2 := CancelOnly(db1);
    assert !HoldsSchedule(db2.bookings, 9, 0);
  }

  /** The store after user 7 confirms seat 2 on top of
      `AfterFirstConfirm(2, 7, 1, 0)`: two confirmed seats, counter 0. */
  function AfterSecondConfirm(): Db {
    Db([Bus("BUS001", 2, Campus)], [Schedule(0, "2025-01-10", "08:00", 0, "active", 0, None)],
       [Booking(7, 0, 1, Confirmed, 0), Booking(7, 0, 2, Confirmed, 0)])
  }

  /** With seat 1 already confirmed, confirm accepts seat 2 for the same user. */
  lemma SecondConfirm()
    ensures Confirm(AfterFirstConfirm(2, 7, 1, 0), 7, 0, 2, 0) == Ok(AfterSecondConfirm())
  {
    var db1 := AfterFirstConfirm(2, 7, 1, 0);
    var db2 := AfterSecondConfirm();
    FirstConfirm(2, 7, 1, 0);
    assert BookedSeats(db1.bookings, 0) == [1];
    assert db1.bookings + [Booking(7, 0, 2, Confirmed, 0)] == db2.bookings;
    var s := db1.schedules[0];
    assert db1.schedules[0 := s.(availableSeats := s.availableSeats - 1)] == db2.schedules;
  }

  /** The confirm handler does not repeat the picker's per-user check: one
      user can confirm two seats of the same schedule. */
  lemma ConfirmAllowsTwoSeatsPerUser()
    ensures var db1 := Confirm(FreshStore(2), 7, 0, 1, 0).value;
      && BookSeat(db1, 7, 0) == Err(Conflict)
      && Confirm(db1, 7, 0, 2, 0).Ok?
      && !OneBookingPerUser(Confirm(db1, 7, 0, 2, 0).value)
  {
    FirstConfirm(2, 7, 1, 0);
    var db1 := AfterFirstConfirm(2, 7, 1, 0);
    assert HoldsSchedule(db1.bookings, 7, 0) by { assert Live(db1.bookings[0], 0); }
    SecondConfirm();
    var db2 := AfterSecondConfirm();
    assert !OneBookingPerUser(db2) by {
      assert db2.bookings[0] == Booking(7, 0, 1, Confirmed, 0);
      assert db2.bookings[1] == Booking(7, 0, 2, Confirmed, 0);
    }
  }

  /** On a one-seat bus: the counter equation holds after the confirm and
      after one cancel, and fails after a second cancel, which leaves the
      counter at 2. */
  lemma DoubleCancelCounters()
    ensures CounterMatches(AfterFirstConfirm(1, 7, 1, 0))
    ensures CounterMatches(CancelOnly(AfterFirstConfirm(1, 7, 1, 0)))
    ensures CancelOnly(CancelOnly(AfterFirstConfirm(1, 7, 1, 0))).schedules[0].availableSeats == 2
    ensures !CounterMatches(CancelOnly(CancelOnly(AfterFirstConfirm(1, 7, 1, 0))))
  {
    var db1 := AfterFirstConfirm(1, 7, 1, 0);
    assert LiveCount(db1.bookings, 0) == 1;
    var db2 := CancelOnly(db1);
    assert db2.schedules[0].availableSeats == 1;
    assert LiveCount(db2.bookings, 0) == 0;
    var db3 := CancelOnly(db2);
    assert LiveCount(db3.bookings, 0) == 0;
    assert Capacity(db3, 0) == 1;
  }

  /** Cancelling an already cancelled booking succeeds and frees a seat that
      was never taken: the counter ends above the bus capacity. */
  lemma DoubleCancelInflatesCounter()
    ensures var db1 := Confirm(FreshStore(1), 7, 0, 1, 0).value;
      var db2 := Cancel(db1, 7, 0, 200).value;
      && CounterMatches(db1) && CounterMatches(db2)
      && Cancel(db2, 7, 0, 300).Ok?
      && Cancel(db2, 7, 0, 300).value.schedules[0].availableSeats == 2
      && !CounterMatches(Cancel(db2, 7, 0, 300).value)
  {
    FirstConfirm(1, 7, 1, 0);
    var db1 := AfterFirstConfirm(1, 7, 1, 0);
    CancelFirst(db1, 7, 200);
    var db2 := CancelOnly(db1);
    CancelFirst(db2, 7, 300);
    DoubleCancelCounters();
  }

  /** A two-seat bus and a one-seat bus; seat 2 of the schedule on the big
      bus is confirmed. */
  function TwoBusStore(): Db {
    Db([Bus("BIG", 2, Campus), Bus("SMALL", 1, Campus)],
       [Schedule(0, "2025-01-10", "08:00", 1, "active", 0, None)],
       [Booking(7, 0, 2, Confirmed, 0)])
  }

  /** Editing overwrites the counter and can move the schedule to a smaller
      bus, leaving a confirmed seat beyond its capacity. */
  lemma EditBreaksCounterAndRange(date: string, time: string)
    requires 'T' !in date && 'T' !in time
    ensures CounterMatches(TwoBusStore()) && SeatsInRange(TwoBusStore())
    ensures EditSchedule(TwoBusStore(), 0, 0, "SMALL", date + "T" + time, 5).Ok?
    ensures !CounterMatches(EditSchedule(TwoBusStore(), 0, 0, "SMALL", date + "T" + time, 5).value)
    ensures !SeatsInRange(EditSchedule(TwoBusStore(), 0, 0, "SMALL", date + "T" + time, 5).value)
  {
    var db := TwoBusStore();
    assert db.bookings[..0] == [];
    assert BookedSeats(db.bookings, 0) == [2];
    SplitJoin(date, time);
    assert FindBus(db.buses, "SMALL") == Some(1) by {
      assert db.buses[1].busNumber == "SMALL";
      assert db.buses[0].busNumber != "SMALL" by { assert "BIG"[0] != "SMALL"[0]; }
    }
    var db' := EditSchedule(db, 0, 0, "SMALL", date + "T" + time, 5).value;
    assert db'.schedules[0].busId == 1 && db'.schedules[0].availableSeats == 5;
    assert db'.bookings == db.bookings;
    assert Capacity(db', 0) == 1;
  }

  /** Only an upper bound guards the seat count of a new schedule. */
  lemma CreateAcceptsNegativeSeats()
    ensures CreateSlot(FreshStore(40), 0, "BUS001", "2025-01-11", "08:00", -1).Ok?
    ensures !CounterNonNegative(CreateSlot(FreshStore(40), 0, "BUS001", "2025-01-11", "08:00", -1).value)
    ensures CreateSlot(FreshStore(40), 0, "BUS001", "2025-01-11", "08:00", 41) == Err(Invalid)
    ensures CreateSlot(FreshStore(40), 0, "BUS999", "2025-01-11", "08:00", 10) == Err(NotFound)
  {
    var db := CreateSlot(FreshStore(40), 0, "BUS001", "2025-01-11", "08:00", -1).value;
    assert db.schedules[1].availableSeats == -1;
  }
  /** A schedule opened with fewer seats than its bus holds leaves the
      counter short of the capacity from the start. */
  lemma CreateBelowCapacityBreaksCounter(capacity: int, total: int)
    requires total < capacity
    ensures CounterMatches(FreshStore(capacity))
    ensures CreateSlot(FreshStore(capacity), 0, "BUS001", "2025-01-11", "08:00", total).Ok?
    ensures !CounterMatches(CreateSlot(FreshStore(capacity), 0, "BUS001", "2025-01-11", "08:00", total).value)
  {
    var db := FreshStore(capacity);
    assert BookedSeats(db.bookings, 0) == [];
    var db' := CreateSlot(db, 0, "BUS001", "2025-01-11", "08:00", total).value;
    assert db'.schedules[1].availableSeats == total;
    assert BookedSeats(db'.bookings, 1) == [];
  }

  /** An edit takes a negative seat count as readily as create does. */
  lemma EditAcceptsNegativeSeats(date: string, time: string)
    requires 'T' !in date && 'T' !in time
    ensures CounterNonNegative(TwoBusStore())
    ensures EditSchedule(TwoBusStore(), 0, 0, "BIG", date + "T" + time, -1).Ok?
    ensures !CounterNonNegative(EditSchedule(TwoBusStore(), 0, 0, "BIG", date + "T" + time, -1).value)
  {
    SplitJoin(date, time);
    var db' := EditSchedule(TwoBusStore(), 0, 0, "BIG", date + "T" + time, -1).value;
    assert db'.schedules[0].availableSeats == -1;
  }

  /** A bus with no route row: confirming a seat on it works, but the seat
      picker fails when it reads the route. */
  lemma PickerFaultsWithoutRoute()
    ensures BookSeat(Db([Bus("BUS002", 2, None)], [Schedule(0, "2025-01-10", "08:00", 2, "active", 0, None)], []), 7, 0)
      == Err(Fault)
    ensures Confirm(Db([Bus("BUS002", 2, None)], [Schedule(0, "2025-01-10", "08:00", 2, "active", 0, None)], []), 7, 0, 1, 0).Ok?
  {
    var db := Db([Bus("BUS002", 2, None)], [Schedule(0, "2025-01-10", "08:00", 2, "active", 0, None)], []);
    assert BookedSeats(db.bookings, 0) == [];
  }
}

=== FILE: outcomes.dfy ===
/** Failure-carrying results and first-match lookup shared by the handlers. */
module Outcomes {

  /** `None` or `Some(value)`: a row that a query may or may not return. */
  datatype Option<+T> = None | Some(value: T)

  /** A handler either fails with an error or produces a value. */
  datatype Result<+T, +E> = Ok(value: T) | Err(error: E)

  /** Index of the first element satisfying `p`, the way the handlers take
      `result.data[0]` from a filtered query. */
  function FirstIndex<T>(s: seq<T>, p: T -> bool): (r: Option<nat>)
    ensures r.Some? ==> r.value < |s| && p(s[r.value])
    ensures r.Some? ==> forall j :: 0 <= j < r.value ==> !p(s[j])
    ensures r.None? <==> forall j :: 0 <= j < |s| ==> !p(s[j])
  {
    if |s| == 0 then None
    else if p(s[0]) then Some(0)
    else match FirstIndex(s[1..], p)
      case None => None
      case Some(k) => Some(k + 1)
  }
}

=== FILE: records.dfy ===
/** The in-memory store the seat handlers read and write: buses, schedules
    and bookings, each table a sequence whose positions are the row ids. */
module Records {
  import opened Outcomes

  datatype BookingStatus = Confirmed | Cancelled

  /** Reference data: a named origin/destination pair. */
  datatype Route = Route(routeName: string, startPoint: string, endPoint: string)

  /** Reference data: a bus, its seat capacity and its route as the nested
      join returns it (`None` when the bus has no route row). */
  datatype Bus = Bus(busNumber: string, capacity: int, route: Option<Route>)

  /** One departure of a bus, with its cached count of free seats. */
  datatype Schedule = Schedule(
    busId: nat, departureDate: string, departureTime: string,
    availableSeats: int, status: string, createdBy: nat, updatedBy: Option<nat>)

  /** A user's claim on one seat of one schedule; `bookingTime` is in seconds. */
  datatype Booking = Booking(
    userId: nat, scheduleId: nat, seat: int, status: BookingStatus, bookingTime: int)

  datatype Db = Db(buses: seq<Bus>, schedules: seq<Schedule>, bookings: seq<Booking>)

  /** Errors a seat handler reports; none of them changes the store. */
  datatype Error =
    | NotFound   // no such schedule, booking or bus
    | NoSeats    // the seat picker's guard: schedule missing or counter at zero
    | Invalid    // seat or seat count outside what the bus allows, malformed input
    | Conflict   // seat or schedule already held
    | TooEarly   // cancellation inside the hold period
    | Fault      // the store raised: a join found no row

  predicate ScheduleExists(db: Db, sid: int) { 0 <= sid < |db.schedules| }

  /** The schedule's bus row is present, so its capacity can be read. */
  predicate HasBus(db: Db, sid: int) {
    ScheduleExists(db, sid) && db.schedules[sid].busId < |db.buses|
  }

  /** The schedule's bus row and that bus's route row are both present, so
      the picker can read the route's name and end points. */
  predicate HasRoute(db: Db, sid: int) {
    HasBus(db, sid) && db.buses[db.schedules[sid].busId].route.Some?
  }

  function Capacity(db: Db, sid: int): int
    requires HasBus(db, sid)
  {
    db.buses[db.schedules[sid].busId].capacity
  }

  /** A confirmed booking on schedule `sid`. */
  predicate Live(b: Booking, sid: int) {
    b.scheduleId == sid && b.status == Confirmed
  }

  /** The seat numbers of the confirmed bookings on `sid`, in booking order:
      what the handlers fetch before offering or confirming a seat. */
  function BookedSeats(bookings: seq<Booking>, sid: int): (seats: seq<int>)
    ensures |seats| <= |bookings|
    ensures forall seat :: seat in seats <==>
      exists i :: 0 <= i < |bookings| && Live(bookings[i], sid) && bookings[i].seat == seat
  {
    if |bookings| == 0 then []
    else
      var last := bookings[|bookings| - 1];
      var init := bookings[..|bookings| - 1];
      var rest := BookedSeats(init, sid);
      assert forall i :: 0 <= i < |init| ==> init[i] == bookings[i];
      rest + (if Live(last, sid) then [last.seat] else [])
  }

  /** Number of confirmed bookings on `sid`. */
  function LiveCount(bookings: seq<Booking>, sid: int): nat {
    |BookedSeats(bookings, sid)|
  }

  lemma {:induction false} LiveCountAppend(bookings: seq<Booking>, b: Booking, sid: int)
    ensures LiveCount(bookings + [b], sid) == LiveCount(bookings, sid) + (if Live(b, sid) then 1 else 0)
  {
    var s := bookings + [b];
    assert s[..|s| - 1] == bookings;
  }

  /** Replacing one booking changes the count on `sid` only by what the old
      and the new row contribute. */
  lemma {:induction false} LiveCountUpdate(bookings: seq<Booking>, k: nat, b: Booking, sid: int)
    requires k < |bookings|
    ensures LiveCount(bookings[k := b], sid) ==
      LiveCount(bookings, sid) - (if Live(bookings[k], sid) then 1 else 0) + (if Live(b, sid) then 1 else 0)
    decreases |bookings|
  {
    var s := bookings[k := b];
    var n := |bookings|;
    if k == n - 1 {
      assert s[..n - 1] == bookings[..n - 1];
    } else {
      assert s[..n - 1] == bookings[..n - 1][k := b];
      LiveCountUpdate(bookings[..n - 1], k, b, sid);
    }
  }

  /** The seats offered on the picker: `lo..hi` ascending, minus `booked`. */
  function OfferedFrom(lo: int, hi: int, booked: seq<int>): (r: seq<int>)
    ensures forall k :: 0 <= k < |r| ==> lo <= r[k] <= hi && r[k] !in booked
    ensures forall k, m :: 0 <= k < m < |r| ==> r[k] < r[m]
    ensures forall x :: lo <= x <= hi && x !in booked ==> x in r
    decreases hi - lo
  {
    if lo > hi then []
    else if lo in booked then OfferedFrom(lo + 1, hi, booked)
    else [lo] + OfferedFrom(lo + 1, hi, booked)
  }

  /** Seats `1..capacity` not among the booked numbers, ascending. */
  function OfferedSeats(capacity: int, booked: seq<int>): (r: seq<int>)
    ensures forall k :: 0 <= k < |r| ==> 1 <= r[k] <= capacity && r[k] !in booked
    ensures forall k, m :: 0 <= k < m < |r| ==> r[k] < r[m]
    ensures forall x :: 1 <= x <= capacity && x !in booked ==> x in r
  {
    OfferedFrom(1, capacity, booked)
  }
}

=== FILE: reservations.dfy ===
/** The student-facing seat handlers: the seat picker, confirming a seat and
    cancelling a booking. Each is one sequential step over the store. */
module Reservations {
  import opened Outcomes
  import opened Records

  /** Minimum time between booking and cancelling, in seconds (two minutes). */
  const HoldSeconds: int := 120

  /** The user already holds a confirmed booking on `sid`. */
  predicate HoldsSchedule(bookings: seq<Booking>, user: nat, sid: int) {
    exists i :: 0 <= i < |bookings| && Live(bookings[i], sid) && bookings[i].userId == user
  }

  /** The seat picker: refuses a user who already holds the schedule, a
      missing schedule or one whose counter is at zero; otherwise lists the
      seats of the bus that no confirmed booking holds. The schedule's bus
      and route are read before the seats are listed, so a missing bus or
      route row makes the picker fail. The store is only read. */
  function BookSeat(db: Db, user: nat, sid: int): (r: Result<seq<int>, Error>)
    ensures r == Err(Conflict) <==> HoldsSchedule(db.bookings, user, sid)
    ensures r == Err(NoSeats) <==>
      !HoldsSchedule(db.bookings, user, sid)
      && (!ScheduleExists(db, sid) || db.schedules[sid].availableSeats <= 0)
    ensures r == Err(Fault) <==>
      !HoldsSchedule(db.bookings, user, sid) && ScheduleExists(db, sid)
      && db.schedules[sid].availableSeats > 0 && !HasRoute(db, sid)
    ensures r.Ok? <==>
      !HoldsSchedule(db.bookings, user, sid) && HasRoute(db, sid) && db.schedules[sid].availableSeats > 0
    ensures r.Ok? ==> forall seat :: seat in r.value <==>
      1 <= seat <= Capacity(db, sid) && seat !in BookedSeats(db.bookings, sid)
    ensures r.Ok? ==> forall k, m :: 0 <= k < m < |r.value| ==> r.value[k] < r.value[m]
  {
    if HoldsSchedule(db.bookings, user, sid) then Err(Conflict)
    else if !ScheduleExists(db, sid) || db.schedules[sid].availableSeats <= 0 then Err(NoSeats)
    else if !HasRoute(db, sid) then Err(Fault)
    else Ok(OfferedSeats(Capacity(db, sid), BookedSeats(db.bookings, sid)))
  }

  /** Confirming a seat: the schedule must exist, the seat must lie in
      `1..capacity`, no confirmed booking may hold it and the counter must be
      positive. Success appends one confirmed booking and lowers that
      schedule's counter by one. The insert sends no booking time: the
      database fills it with the insertion time, which the model records as
      `now` so that a later cancel can read it back. The per-user check of the picker is not
      repeated here. */
  function Confirm(db: Db, user: nat, sid: int, seat: int, now: int): (r: Result<Db, Error>)
    ensures r == Err(NotFound) <==> !ScheduleExists(db, sid)
    ensures r == Err(Fault) <==> ScheduleExists(db, sid) && !HasBus(db, sid)
    ensures r == Err(Invalid) <==> HasBus(db, sid) && (seat < 1 || seat > Capacity(db, sid))
    ensures r == Err(Conflict) <==>
      HasBus(db, sid) && 1 <= seat <= Capacity(db, sid)
      && (seat in BookedSeats(db.bookings, sid) || db.schedules[sid].availableSeats <= 0)
    ensures r.Ok? <==>
      HasBus(db, sid) && 1 <= seat <= Capacity(db, sid)
      && seat !in BookedSeats(db.bookings, sid) && db.schedules[sid].availableSeats > 0
    ensures r.Ok? ==>
      && r.value.buses == db.buses
      && r.value.bookings == db.bookings + [Booking(user, sid, seat, Confirmed, now)]
      && |r.value.schedules| == |db.schedules|
      && r.value.schedules[sid] == db.schedules[sid].(availableSeats := db.schedules[sid].availableSeats - 1)
      && (forall j :: 0 <= j < |db.schedules| && j != sid ==> r.value.schedules[j] == db.schedules[j])
  {
    if !ScheduleExists(db, sid) then Err(NotFound)
    else if !HasBus(db, sid) then Err(Fault)
    else if seat < 1 || seat > Capacity(db, sid) then Err(Invalid)
    else if seat in BookedSeats(db.bookings, sid) || db.schedules[sid].availableSeats <= 0 then Err(Conflict)
    else
      var s := db.schedules[sid];
      Ok(db.(bookings := db.bookings + [Booking(user, sid, seat, Confirmed, now)],
             schedules := db.schedules[sid := s.(availableSeats := s.availableSeats - 1)]))
  }

  /** Cancelling a booking: it must exist and belong to the caller, and the
      hold period must have passed. Success marks it cancelled and raises its
      schedule's counter by one. The booking's status is not checked, so a
      cancelled booking can be cancelled again. */
  function Cancel(db: Db, user: nat, bid: int, now: int): (r: Result<Db, Error>)
    ensures r == Err(NotFound) <==> !(0 <= bid < |db.bookings| && db.bookings[bid].userId == user)
    ensures r == Err(TooEarly) <==>
      0 <= bid < |db.bookings| && db.bookings[bid].userId == user
      && now - db.bookings[bid].bookingTime < HoldSeconds
    ensures r == Err(Fault) <==>
      0 <= bid < |db.bookings| && db.bookings[bid].userId == user
      && now - db.bookings[bid].bookingTime >= HoldSeconds
      && !ScheduleExists(db, db.bookings[bid].scheduleId)
    ensures r.Ok? <==>
      && 0 <= bid < |db.bookings|
      && db.bookings[bid].userId == user
      && now - db.bookings[bid].bookingTime >= HoldSeconds
      && ScheduleExists(db, db.bookings[bid].scheduleId)
    ensures r.Ok? ==>
      var b := db.bookings[bid];
      && r.value.buses == db.buses
      && r.value.bookings == db.bookings[bid := b.(status := Cancelled)]
      && |r.value.schedules| == |db.schedules|
      && r.value.schedules[b.scheduleId].availableSeats == db.schedules[b.scheduleId].availableSeats + 1
      && r.value.schedules[b.scheduleId] == db.schedules[b.scheduleId].(availableSeats := r.value.schedules[b.scheduleId].availableSeats)
      && (forall j :: 0 <= j < |db.schedules| && j != b.scheduleId ==> r.value.schedules[j] == db.schedules[j])
  {
    if !(0 <= bid < |db.bookings| && db.bookings[bid].userId == user) then Err(NotFound)
    else
      var b := db.bookings[bid];
      if now - b.bookingTime < HoldSeconds then Err(TooEarly)
      else if !ScheduleExists(db, b.scheduleId) then Err(Fault)
      else
        var s := db.schedules[b.scheduleId];
        Ok(db.(bookings := db.bookings[bid := b.(status := Cancelled)],
               schedules := db.schedules[b.scheduleId := s.(availableSeats := s.availableSeats + 1)]))
  }
}

=== FILE: schedules.dfy ===
/** The admin schedule handlers: creating a departure and editing one. */
module Schedules {
  import opened Outcomes
  import opened Records

  /** The first bus row with this bus number. */
  function FindBus(buses: seq<Bus>, busNumber: string): (r: Option<nat>)
    ensures r.Some? ==> r.value < |buses| && buses[r.value].busNumber == busNumber
    ensures r.Some? ==> forall j :: 0 <= j < r.value ==> buses[j].busNumber != busNumber
    ensures r.None? <==> forall j :: 0 <= j < |buses| ==> buses[j].busNumber != busNumber
  {
    FirstIndex(buses, (b: Bus) => b.busNumber == busNumber)
  }

  /** Creating a schedule: the bus must exist and the seat count may not
      exceed its capacity; the new row starts active with that many free
      seats. No lower bound is placed on the seat count. */
  function CreateSlot(db: Db, admin: nat, busNumber: string, date: string, time: string, totalSeats: int)
    : (r: Result<Db, Error>)
    ensures r == Err(NotFound) <==> FindBus(db.buses, busNumber).None?
    ensures r == Err(Invalid) <==>
      FindBus(db.buses, busNumber).Some? && totalSeats > db.buses[FindBus(db.buses, busNumber).value].capacity
    ensures r.Ok? <==>
      FindBus(db.buses, busNumber).Some? && totalSeats <= db.buses[FindBus(db.buses, busNumber).value].capacity
    ensures r.Ok? ==>
      var b := FindBus(db.buses, busNumber).value;
      && r.value.buses == db.buses
      && r.value.bookings == db.bookings
      && r.value.schedules == db.schedules + [Schedule(b, date, time, totalSeats, "active", admin, None)]
  {
    match FindBus(db.buses, busNumber)
    case None => Err(NotFound)
    case Some(b) =>
      if totalSeats > db.buses[b].capacity then Err(Invalid)
      else Ok(db.(schedules := db.schedules + [Schedule(b, date, time, totalSeats, "active", admin, None)]))
  }

  /** Position of the first 'T' in `s`. */
  function FirstT(s: string): (r: Option<nat>)
    ensures r.Some? ==> r.value < |s| && s[r.value] == 'T' && 'T' !in s[..r.value]
    ensures r.None? <==> 'T' !in s
  {
    var r := FirstIndex(s, (c: char) => c == 'T');
    if r.Some? then
      assert forall j :: 0 <= j < r.value ==> s[..r.value][j] == s[j];
      r
    else r
  }

  /** Python's two-name unpacking of `s.split("T")`: it succeeds only when
      there is exactly one 'T'. */
  function SplitAtT(s: string): (r: Option<(string, string)>)
    ensures r.Some? ==>
      s == r.value.0 + "T" + r.value.1 && 'T' !in r.value.0 && 'T' !in r.value.1
  {
    match FirstT(s)
    case None => None
    case Some(i) =>
      if 'T' in s[i + 1..] then None
      else
        assert s == s[..i] + "T" + s[i + 1..];
        Some((s[..i], s[i + 1..]))
  }

  /** Splitting the joined date and time gives the parts back. */
  lemma SplitJoin(date: string, time: string)
    requires 'T' !in date && 'T' !in time
    ensures SplitAtT(date + "T" + time) == Some((date, time))
  {
    var t := date + "T" + time;
    assert t[|date|] == 'T';
    assert t[..|date|] == date;
    assert t[|date| + 1..] == time;
  }

  /** Every departure with no 'T', or with more than one, is refused. */
  lemma SplitRejects(s: string)
    ensures 'T' !in s ==> SplitAtT(s) == None
    ensures (exists i, j :: 0 <= i < j < |s| && s[i] == 'T' && s[j] == 'T') ==> SplitAtT(s) == None
  {
    if exists i, j :: 0 <= i < j < |s| && s[i] == 'T' && s[j] == 'T' {
      var i, j :| 0 <= i < j < |s| && s[i] == 'T' && s[j] == 'T';
      var k := FirstT(s).value;
      assert k <= i;
      assert s[k + 1..][j - k - 1] == 'T';
    }
  }

  /** Editing a schedule: the bus must exist and the departure must split at
      one 'T'. The row is then re-targeted to that bus and its counter is
      overwritten with the admin's number, with no check against capacity or
      existing bookings. An id with no row updates nothing and still succeeds. */
  function EditSchedule(db: Db, admin: nat, sid: int, busNumber: string, departure: string, totalSeats: int)
    : (r: Result<Db, Error>)
    ensures r == Err(NotFound) <==> FindBus(db.buses, busNumber).None?
    ensures r == Err(Invalid) <==> FindBus(db.buses, busNumber).Some? && SplitAtT(departure).None?
    ensures r.Ok? <==> FindBus(db.buses, busNumber).Some? && SplitAtT(departure).Some?
    ensures r.Ok? && !ScheduleExists(db, sid) ==> r.value == db
    ensures r.Ok? && ScheduleExists(db, sid) ==>
      var parts := SplitAtT(departure).value;
      && r.value.buses == db.buses
      && r.value.bookings == db.bookings
      && |r.value.schedules| == |db.schedules|
      && r.value.schedules[sid] == db.schedules[sid].(
           busId := FindBus(db.buses, busNumber).value,
           departureDate := parts.0, departureTime := parts.1,
           availableSeats := totalSeats, updatedBy := Some(admin))
      && (forall j :: 0 <= j < |db.schedules| && j != sid ==> r.value.schedules[j] == db.schedules[j])
  {
    match FindBus(db.buses, busNumber)
    case None => Err(NotFound)
    case Some(b) =>
      match SplitAtT(departure)
      case None => Err(Invalid)
      case Some(parts) =>
        if !ScheduleExists(db, sid) then Ok(db)
        else
          var s := db.schedules[sid];
          Ok(db.(schedules := db.schedules[sid := s.(
            busId := b, departureDate := parts.0, departureTime := parts.1,
            availableSeats := totalSeats, updatedBy := Some(admin))]))
  }
}

=== FILE: text.dfy ===
/** Character classes and string operations the validators rely on:
    Python's `str.isdigit`, `str.isupper`, `str.strip`, `in` on strings,
    `str.startswith`, and `str()` of a non-negative integer. */
module Text {

  /** ASCII decimal digit. */
  predicate IsDigit(c: char) { '0' <= c <= '9' }

  /** ASCII upper-case letter. */
  predicate IsUpper(c: char) { 'A' <= c <= 'Z' }

  /** The characters Python's `str.isspace` accepts (and `str.strip` removes),
      by code point. */
  predicate IsSpace(c: char) {
    var n := c as int;
    || 9 <= n <= 13
    || 28 <= n <= 32
    || n == 0x85 || n == 0xA0 || n == 0x1680
    || 0x2000 <= n <= 0x200A
    || n == 0x2028 || n == 0x2029 || n == 0x202F || n == 0x205F || n == 0x3000
  }

  /** Python's `any(p(c) for c in s)`. */
  function AnyChar(s: string, p: char -> bool): (r: bool)
    ensures r <==> exists i :: 0 <= i < |s| && p(s[i])
  {
    if |s| == 0 then false
    else p(s[0]) || AnyChar(s[1..], p)
  }

  /** Python's `all(p(c) for c in s)`. Unlike `str.isdigit`, which is false
      on the empty string, this holds on `""`; every caller checks a positive
      length alongside it, so the two agree wherever it is used. */
  function AllChars(s: string, p: char -> bool): (r: bool)
    ensures r <==> forall i :: 0 <= i < |s| ==> p(s[i])
  {
    if |s| == 0 then true
    else p(s[0]) && AllChars(s[1..], p)
  }

  predicate StartsWith(s: string, prefix: string) {
    |prefix| <= |s| && s[..|prefix|] == prefix
  }

  predicate OccursAt(s: string, t: string, i: int) {
    0 <= i && i + |t| <= |s| && s[i..i + |t|] == t
  }

  /** Python's `t in s` for strings: `t` is a substring of `s`. */
  function Contains(s: string, t: string): (r: bool)
    ensures r <==> exists i :: OccursAt(s, t, i)
    decreases |s|
  {
    if |t| > |s| then
      assert forall i :: !OccursAt(s, t, i);
      false
    else if s[..|t|] == t then
      assert OccursAt(s, t, 0);
      true
    else
      var rest := Contains(s[1..], t);
      assert forall i :: OccursAt(s[1..], t, i) <==> OccursAt(s, t, i + 1) by {
        forall i ensures OccursAt(s[1..], t, i) <==> OccursAt(s, t, i + 1) {
          if 0 <= i && i + |t| <= |s| - 1 {
            assert s[1..][i..i + |t|] == s[i + 1..i + 1 + |t|];
          }
        }
      }
      assert !OccursAt(s, t, 0);
      assert (exists i :: OccursAt(s, t, i)) ==> exists i :: OccursAt(s[1..], t, i) by {
        if exists i :: OccursAt(s, t, i) {
          var i :| OccursAt(s, t, i);
          assert OccursAt(s[1..], t, i - 1);
        }
      }
      rest
  }

  /** Drop leading whitespace. */
  function TrimLeft(s: string): (r: string)
    ensures |r| <= |s| && r == s[|s| - |r|..]
    ensures forall i :: 0 <= i < |s| - |r| ==> IsSpace(s[i])
    ensures |r| > 0 ==> !IsSpace(r[0])
  {
    if |s| > 0 && IsSpace(s[0]) then TrimLeft(s[1..]) else s
  }

  /** Drop trailing whitespace. */
  function TrimRight(s: string): (r: string)
    ensures |r| <= |s| && r == s[..|r|]
    ensures forall i :: |r| <= i < |s| ==> IsSpace(s[i])
    ensures |r| > 0 ==> !IsSpace(r[|r| - 1])
  {
    if |s| > 0 && IsSpace(s[|s| - 1]) then TrimRight(s[..|s| - 1]) else s
  }

  /** Python's `str.strip()` with no argument. */
  function Strip(s: string): string {
    TrimRight(TrimLeft(s))
  }

  predicate AllSpace(s: string) {
    forall i :: 0 <= i < |s| ==> IsSpace(s[i])
  }

  /** A string with no whitespace at either end. */
  predicate Trimmed(s: string) {
    |s| > 0 ==> !IsSpace(s[0]) && !IsSpace(s[|s| - 1])
  }

  lemma {:induction false} TrimLeftPadded(pad: string, core: string)
    requires AllSpace(pad)
    requires |core| > 0 ==> !IsSpace(core[0])
    ensures TrimLeft(pad + core) == core
    decreases |pad|
  {
    if |pad| == 0 {
      assert pad + core == core;
    } else {
      assert (pad + core)[1..] == pad[1..] + core;
      TrimLeftPadded(pad[1..], core);
    }
  }

  lemma {:induction false} TrimRightPadded(core: string, pad: string)
    requires AllSpace(pad)
    requires |core| > 0 ==> !IsSpace(core[|core| - 1])
    ensures TrimRight(core + pad) == core
    decreases |pad|
  {
    if |pad| == 0 {
      assert core + pad == core;
    } else {
      var s := core + pad;
      assert s[..|s| - 1] == core + pad[..|pad| - 1];
      TrimRightPadded(core, pad[..|pad| - 1]);
    }
  }

  /** `Strip` removes exactly the surrounding whitespace: whatever padding
      surrounds a trimmed string, stripping gives that string back. */
  lemma StripPadded(left: string, core: string, right: string)
    requires AllSpace(left) && AllSpace(right) && Trimmed(core)
    ensures Strip(left + core + right) == core
  {
    if |core| == 0 {
      assert left + core + right == left + right;
      assert AllSpace(left + right);
      TrimLeftPadded(left + right, "");
      assert left + right + "" == left + right;
      assert TrimRight("") == "";
    } else {
      assert left + core + right == left + (core + right);
      TrimLeftPadded(left, core + right);
      TrimRightPadded(core, right);
    }
  }

  /** `Strip` returns the infix `s[lo..hi]` and removes only whitespace
      around it. */
  lemma StripIsInfix(s: string) returns (lo: nat, hi: nat)
    ensures lo <= hi <= |s| && Strip(s) == s[lo..hi]
    ensures AllSpace(s[..lo]) && AllSpace(s[hi..])
  {
    var l := TrimLeft(s);
    var r := TrimRight(l);
    lo := |s| - |l|;
    hi := lo + |r|;
    assert s[lo..hi] == s[lo..][..|r|];
    LeadingSpace(s);
    assert s[hi..] == l[|r|..];
    TrailingSpace(l);
  }

  /** What `TrimLeft` drops is whitespace. */
  lemma LeadingSpace(s: string)
    ensures AllSpace(s[..|s| - |TrimLeft(s)|])
  {
    var lo := |s| - |TrimLeft(s)|;
    forall i | 0 <= i < lo ensures IsSpace(s[..lo][i]) {
      assert s[..lo][i] == s[i];
    }
  }

  /** What `TrimRight` drops is whitespace. */
  lemma TrailingSpace(s: string)
    ensures AllSpace(s[|TrimRight(s)|..])
  {
    var n := |TrimRight(s)|;
    forall i | 0 <= i < |s| - n ensures IsSpace(s[n..][i]) {
      assert s[n..][i] == s[n + i];
    }
  }

  /** The result of `Strip` has no whitespace at either end, so stripping
      twice is stripping once. */
  lemma StripIdempotent(s: string)
    ensures Trimmed(Strip(s))
    ensures Strip(Strip(s)) == Strip(s)
  {
    var r := Strip(s);
    if |r| > 0 {
      assert r[0] == TrimLeft(s)[0];
    }
    StripPadded("", r, "");
    assert "" + r + "" == r;
  }

  // ---- decimal rendering of naturals: Python's str(n) for n >= 0 ----

  function DigitChar(d: nat): char
    requires d < 10
  {
    ('0' as int + d) as char
  }

  function DigitValue(c: char): nat
    requires IsDigit(c)
  {
    c as int - '0' as int
  }

  /** Python's `str(n)` for a non-negative integer. */
  function Decimal(n: nat): (r: string)
    ensures |r| > 0
    ensures forall i :: 0 <= i < |r| ==> IsDigit(r[i])
    ensures r[0] == '0' ==> n == 0 && |r| == 1
  {
    if n < 10 then [DigitChar(n)]
    else Decimal(n / 10) + [DigitChar(n % 10)]
  }

  /** Value of a string of decimal digits, most significant first. */
  function DigitsValue(s: string): nat
    requires forall i :: 0 <= i < |s| ==> IsDigit(s[i])
  {
    if |s| == 0 then 0
    else DigitsValue(s[..|s| - 1]) * 10 + DigitValue(s[|s| - 1])
  }

  /** What `str(n)` can produce: non-empty, all digits, no leading zero
      except for "0" itself. */
  predicate IsCanonicalDecimal(s: string) {
    && |s| > 0
    && (forall i :: 0 <= i < |s| ==> IsDigit(s[i]))
    && (|s| == 1 || s[0] != '0')
  }

  lemma {:induction false} DecimalRoundTrip(n: nat)
    ensures DigitsValue(Decimal(n)) == n
  {
    if n >= 10 {
      var s := Decimal(n);
      assert s[..|s| - 1] == Decimal(n / 10);
      DecimalRoundTrip(n / 10);
    }
  }

  lemma {:induction false} LeadingNonZeroPositive(s: string)
    requires |s| > 0 && s[0] != '0'
    requires forall i :: 0 <= i < |s| ==> IsDigit(s[i])
    ensures DigitsValue(s) > 0
    decreases |s|
  {
    if |s| > 1 {
      LeadingNonZeroPositive(s[..|s| - 1]);
    } else {
      assert s[..0] == "";
    }
  }

  lemma {:induction false} CanonicalRoundTrip(s: string)
    requires IsCanonicalDecimal(s)
    ensures Decimal(DigitsValue(s)) == s
    decreases |s|
  {
    var v := DigitsValue(s);
    var init := s[..|s| - 1];
    var d := DigitValue(s[|s| - 1]);
    if |s| == 1 {
      assert init == "";
      assert DigitsValue(init) == 0;
      assert v == d;
      assert Decimal(v) == [DigitChar(d)];
    } else {
      assert IsCanonicalDecimal(init);
      LeadingNonZeroPositive(init);
      CanonicalRoundTrip(init);
      assert v == DigitsValue(init) * 10 + d;
      assert v / 10 == DigitsValue(init) && v % 10 == d;
      assert Decimal(v) == Decimal(DigitsValue(init)) + [DigitChar(d)];
      assert s == init + [s[|s| - 1]];
    }
  }

  /** The strings `str(n)` produces are exactly the canonical decimals of `n`. */
  lemma DecimalIsCanonical(n: nat, s: string)
    ensures Decimal(n) == s <==> IsCanonicalDecimal(s) && DigitsValue(s) == n
  {
    if Decimal(n) == s {
      DecimalRoundTrip(n);
    }
    if IsCanonicalDecimal(s) && DigitsValue(s) == n {
      CanonicalRoundTrip(s);
    }
  }
}

=== FILE: traces.dfy ===
/** Sequential runs of the mutating seat handlers, and the invariants that
    hold along every run. */
module Traces {
  import opened Records
  import opened Reservations
  import opened Schedules
  import opened Consistency

  /** One request to a mutating handler. */
  datatype Step =
    | ConfirmStep(user: nat, sid: int, seat: int, now: int)
    | CancelStep(user: nat, bid: int, now: int)
    | CreateStep(admin: nat, busNumber: string, date: string, time: string, total: int)
    | EditStep(admin: nat, sid: int, busNumber: string, departure: string, total: int)

  /** The store after one request; a refused request leaves it as it was. */
  function Apply(db: Db, step: Step): Db {
    var r := match step
      case ConfirmStep(u, sid, seat, now) => Confirm(db, u, sid, seat, now)
      case CancelStep(u, bid, now) => Cancel(db, u, bid, now)
      case CreateStep(a, bus, date, time, total) => CreateSlot(db, a, bus, date, time, total)
      case EditStep(a, sid, bus, dep, total) => EditSchedule(db, a, sid, bus, dep, total);
    if r.Ok? then r.value else db
  }

  /** The store after a sequence of requests, one at a time. */
  function Run(db: Db, steps: seq<Step>): Db
    decreases |steps|
  {
    if |steps| == 0 then db else Run(Apply(db, steps[0]), steps[1..])
  }

  /** The admin never enters a negative seat count. */
  predicate NonNegativeCounts(steps: seq<Step>) {
    forall k :: 0 <= k < |steps| ==>
      (steps[k].CreateStep? ==> steps[k].total >= 0) && (steps[k].EditStep? ==> steps[k].total >= 0)
  }

  lemma ApplyPreserves(db: Db, step: Step)
    ensures WellFormed(db) ==> WellFormed(Apply(db, step))
    ensures SeatsDistinct(db) ==> SeatsDistinct(Apply(db, step))
    ensures CounterNonNegative(db) && (step.CreateStep? || step.EditStep? ==> step.total >= 0) ==>
      CounterNonNegative(Apply(db, step))
  {
    match step
    case ConfirmStep(u, sid, seat, now) =>
      if Confirm(db, u, sid, seat, now).Ok? {
        ConfirmPreservesShape(db, u, sid, seat, now);
        if SeatsDistinct(db) { ConfirmKeepsSeatsDistinct(db, u, sid, seat, now); }
      }
    case CancelStep(u, bid, now) =>
      if Cancel(db, u, bid, now).Ok? { CancelPreservesShape(db, u, bid, now); }
    case CreateStep(a, bus, date, time, total) =>
      if CreateSlot(db, a, bus, date, time, total).Ok? { CreatePreservesShape(db, a, bus, date, time, total); }
    case EditStep(a, sid, bus, dep, total) =>
      if EditSchedule(db, a, sid, bus, dep, total).Ok? { EditPreservesShape(db, a, sid, bus, dep, total); }
  }

  /** Along any run, no seat of a schedule is ever held by two confirmed
      bookings, and, as long as the admin enters no negative seat count, no
      counter goes below zero. */
  lemma {:induction false} RunPreserves(db: Db, steps: seq<Step>)
    ensures WellFormed(db) ==> WellFormed(Run(db, steps))
    ensures SeatsDistinct(db) ==> SeatsDistinct(Run(db, steps))
    ensures CounterNonNegative(db) && NonNegativeCounts(steps) ==> CounterNonNegative(Run(db, steps))
    decreases |steps|
  {
    if |steps| > 0 {
      ApplyPreserves(db, steps[0]);
      assert NonNegativeCounts(steps) ==> NonNegativeCounts(steps[1..]) by {
        if NonNegativeCounts(steps) {
          forall k | 0 <= k < |steps[1..]| ensures steps[1..][k] == steps[k + 1] { }
        }
      }
      RunPreserves(Apply(db, steps[0]), steps[1..]);
    }
  }
}

=== FILE: validators.dfy ===
/** The input checks of registration and login: password policy, student-ID
    format by year, phone and e-mail checks, and the arithmetic CAPTCHA. */
module Validators {
  import opened Outcomes
  import opened Text

  /** The special characters a password must draw on. */
  const SpecialChars: string := "@#$%&*!?"

  /** The minimum password length. */
  const MinPasswordLength: nat := 8

  predicate IsSpecial(c: char) { c in SpecialChars }

  /** Password policy shared by student and admin registration: an upper-case
      letter, a digit, a special character, and at least eight characters. */
  function PasswordOk(password: string): (ok: bool)
    ensures ok <==>
      && (exists i :: 0 <= i < |password| && IsUpper(password[i]))
      && (exists i :: 0 <= i < |password| && IsDigit(password[i]))
      && (exists i :: 0 <= i < |password| && password[i] in SpecialChars)
      && |password| >= MinPasswordLength
  {
    && AnyChar(password, IsUpper)
    && AnyChar(password, IsDigit)
    && AnyChar(password, IsSpecial)
    && |password| >= MinPasswordLength
  }

  /** A digit-only password lacks a special character; adding one passes. */
  lemma PasswordExamples()
    ensures !PasswordOk("Abc12345")
    ensures PasswordOk("Abc123@5")
  {
    var weak := "Abc12345";
    assert forall i :: 0 <= i < |weak| ==> weak[i] !in SpecialChars;
    var strong := "Abc123@5";
    assert IsUpper(strong[0]) && IsDigit(strong[3]) && strong[6] in SpecialChars;
  }

  // ---- student IDs ----

  /** One position of a fixed-width regular expression. */
  datatype CharClass = Lit(c: char) | UpperClass | DigitClass

  predicate ClassMatches(k: CharClass, c: char) {
    match k
    case Lit(x) => c == x
    case UpperClass => IsUpper(c)
    case DigitClass => IsDigit(c)
  }

  function Literal(s: string): (pat: seq<CharClass>)
    ensures |pat| == |s| && forall i :: 0 <= i < |s| ==> pat[i] == Lit(s[i])
  {
    if |s| == 0 then [] else [Lit(s[0])] + Literal(s[1..])
  }

  function Repeat(k: CharClass, n: nat): (pat: seq<CharClass>)
    ensures |pat| == n && forall i :: 0 <= i < n ==> pat[i] == k
  {
    if n == 0 then [] else [k] + Repeat(k, n - 1)
  }

  /** `re.fullmatch` for a fixed-width pattern of character classes. */
  function FullMatch(pat: seq<CharClass>, s: string): (ok: bool)
    ensures ok <==> |pat| == |s| && forall i :: 0 <= i < |s| ==> ClassMatches(pat[i], s[i])
  {
    if |pat| == 0 || |s| == 0 then |pat| == |s|
    else ClassMatches(pat[0], s[0]) && FullMatch(pat[1..], s[1..])
  }

  /** The fourth-year pattern `HU22[A-Z]{4}[0-9]{7}`. */
  function FourthYearPattern(): seq<CharClass> {
    Literal("HU22") + Repeat(UpperClass, 4) + Repeat(DigitClass, 7)
  }

  /** The numeric prefix of the ID for years 1, 2 and 3. */
  function YearPrefix(year: int): string
    requires 1 <= year <= 3
  {
    if year == 1 then "2025" else if year == 2 then "2024" else "2023"
  }

  /** Student-ID format for the claimed year: ten digits with the year's
      prefix for years 1 to 3, the fixed alphanumeric pattern for year 4,
      and nothing for any other year. */
  function StudentIdValid(year: int, id: string): (ok: bool)
    ensures ok ==> 1 <= year <= 4
    ensures 1 <= year <= 3 ==>
      (ok <==> |id| == 10 && id[..4] == YearPrefix(year)
                && forall i :: 4 <= i < 10 ==> IsDigit(id[i]))
    ensures year == 4 ==>
      (ok <==> && |id| == 15 && id[..4] == "HU22"
               && (forall i :: 4 <= i < 8 ==> IsUpper(id[i]))
               && (forall i :: 8 <= i < 15 ==> IsDigit(id[i])))
  {
    if year == 1 || year == 2 || year == 3 then
      AllChars(id, IsDigit) && |id| == 10 && StartsWith(id, YearPrefix(year))
    else if year == 4 then
      var pat := FourthYearPattern();
      assert forall i :: 0 <= i < 4 ==> pat[i] == Lit("HU22"[i]);
      assert forall i :: 4 <= i < 8 ==> pat[i] == UpperClass;
      assert forall i :: 8 <= i < 15 ==> pat[i] == DigitClass;
      FullMatch(pat, id)
    else
      false
  }

  /** An ID is valid for at most one year, so the claimed year is determined
      by the ID itself. */
  lemma YearDetermined(y1: int, y2: int, id: string)
    requires StudentIdValid(y1, id) && StudentIdValid(y2, id)
    ensures y1 == y2
  {
  }

  lemma NumericIdAccepted()
    ensures StudentIdValid(1, "2025123456")
  {
    var id := "2025123456";
    assert id[..4] == "2025";
    assert forall i :: 4 <= i < 10 ==> IsDigit(id[i]);
  }

  /** A first-year ID is refused when the student claims second year. */
  lemma NumericIdWrongYear()
    ensures !StudentIdValid(2, "2025123456")
  {
    var id := "2025123456";
    assert id[..4] != YearPrefix(2) by { assert id[3] != YearPrefix(2)[3]; }
  }

  lemma FourthYearIdAccepted()
    ensures StudentIdValid(4, "HU22ABCD1234567")
  {
    var id := "HU22ABCD1234567";
    assert |id| == 15 && id[..4] == "HU22";
    assert forall i :: 4 <= i < 8 ==> IsUpper(id[i]);
    assert forall i :: 8 <= i < 15 ==> IsDigit(id[i]);
  }

  lemma FourthYearLowerCaseRejected()
    ensures !StudentIdValid(4, "HU22abcd1234567")
  {
    var id := "HU22abcd1234567";
    assert !IsUpper(id[4]);
  }

  /** Years outside 1..4 never accept any ID. */
  lemma OtherYearsRejectAll(year: int, id: string)
    requires year < 1 || year > 4
    ensures !StudentIdValid(year, id)
  {
  }

  // ---- phone and e-mail ----

  /** Phone check: exactly ten characters, all digits. */
  function PhoneOk(phone: string): (ok: bool)
    ensures ok <==> |phone| == 10 && forall i :: 0 <= i < |phone| ==> IsDigit(phone[i])
  {
    |phone| == 10 && AllChars(phone, IsDigit)
  }

  /** The campus mail domain registration asks for. */
  const CampusDomain: string := "@student.gitam.edu"

  /** E-mail check: the campus domain occurs somewhere in the address. */
  function EmailOk(email: string): (ok: bool)
    ensures ok <==> exists i :: OccursAt(email, CampusDomain, i)
  {
    Contains(email, CampusDomain)
  }

  /** Every address ending in the campus domain is accepted, but so is one
      that merely contains it: the check is looser than "ends with". */
  lemma EmailAcceptsSuffixAndInfix(local: string)
    ensures EmailOk(local + CampusDomain)
    ensures EmailOk("x@student.gitam.edu.example.com")
  {
    var e := local + CampusDomain;
    assert e[|local|..|local| + |CampusDomain|] == CampusDomain;
    assert OccursAt(e, CampusDomain, |local|);
    var f := "x" + CampusDomain + ".example.com";
    assert f == "x@student.gitam.edu.example.com";
    assert f[1..1 + |CampusDomain|] == CampusDomain;
    assert OccursAt(f, CampusDomain, 1);
  }

  // ---- CAPTCHA ----

  /** The challenge shown on a login page: two addends and the expected sum. */
  datatype Challenge = Challenge(question: string, solution: nat)

  /** Builds the challenge from the two random addends, each in 1..10. */
  function NewChallenge(n1: nat, n2: nat): (ch: Challenge)
    requires 1 <= n1 <= 10 && 1 <= n2 <= 10
    ensures 2 <= ch.solution <= 20
    ensures ch.solution == n1 + n2
  {
    Challenge(Decimal(n1) + " + " + Decimal(n2), n1 + n2)
  }

  /** The login CAPTCHA: a solution must be stored for the session and its
      decimal rendering must equal the submitted answer character for
      character. */
  function CaptchaOk(solution: Option<nat>, answer: string): (ok: bool)
    ensures ok ==> solution.Some? && IsCanonicalDecimal(answer) && DigitsValue(answer) == solution.value
  {
    if solution.None? then false
    else
      DecimalIsCanonical(solution.value, answer);
      Decimal(solution.value) == answer
  }

  /** The CAPTCHA accepts exactly the canonical decimal spelling of the stored
      sum: no sign, no spaces, no leading zeros. */
  lemma CaptchaAcceptsExactly(solution: Option<nat>, answer: string)
    ensures CaptchaOk(solution, answer) <==>
      solution.Some? && IsCanonicalDecimal(answer) && DigitsValue(answer) == solution.value
  {
    if solution.Some? {
      DecimalIsCanonical(solution.value, answer);
    }
  }

  lemma CaptchaExamples()
    ensures CaptchaOk(Some(12), "12")
    ensures !CaptchaOk(Some(7), "07")
    ensures !CaptchaOk(None, "7")
  {
    CaptchaAcceptsExactly(Some(12), "12");
    assert DigitsValue("12") == 12 by {
      assert "12"[..1] == "1";
      assert DigitsValue("1") == 1 by { assert "1"[..0] == ""; }
    }
    CaptchaAcceptsExactly(Some(7), "07");
  }
}
